=== FILE: README.md ===
# MoneyMate, modelled in Dafny

MoneyMate is an Android app for keeping a personal ledger of income and
expenses in Indonesian rupiah (IDR). Figures can be shown in another
currency using rates fetched from an exchange-rate API, cached for an hour,
and backed by a hard-coded fallback table. This project models the logic
under the Android glue, as immutable datatypes and pure functions over
`real` amounts, and proves what that logic promises:

- **`CurrencyService`**: the rate table (units per euro, EUR as the pivot),
  `convertCurrency`, the decision table of `getExchangeRates` and
  `handleApiFailure`, the one-hour cache, and the currency labels.
- **`DatabaseHelper`**: the `transactions` table as a sequence of rows plus
  the AUTOINCREMENT counter. Covers insert, update and delete, the listing
  order, the month query on `yyyy-MM-dd` text, the current balance and the
  per-category expense totals.
- **`Models`**: the `Transaction` record and the sums every screen computes.
- **Screens**: the summary card and currency dialog of `HomeFragment`, the
  save checks of `AddTransactionFragment`, the month report of
  `MonthlyReportFragment`, the pie of `ChartActivity`, the converter of
  `CurrencyActivity` and the theme preference of `MainActivity`.

The helper modules are `Wrappers` (`Option`), `Text` (trimming,
lower-casing, byte-wise string order, zero-padded digits, `indexOf`) and
`Dates` (calendar days, their `yyyy-MM-dd` text, zero-based months).

Inputs of the model stand in for the outside world:
- the network state, as a boolean, and a second boolean for the re-check
  inside `handleApiFailure`;
- the API answer, as `Fetched(rates)` or `Failed`;
- the clock, as an integer in milliseconds;
- the saved preferences;
- what `Double.parseDouble` makes of a text, as an `Option<real>`;
- the codes `java.util.Currency` accepts, as a set.

All paths in the table below are under `app/src/main/java/com/example/moneymate/`.
The table cells carry them in full.

## Model

| member | source | states |
|---|---|---|
| Models.SetId | app/src/main/java/com/example/moneymate/models/Transaction.java:34 | `setId` changes the id and leaves the other five fields as they were |
| Models.SetAmount | app/src/main/java/com/example/moneymate/models/Transaction.java:35 | `setAmount` changes the amount only |
| Models.SetDescription | app/src/main/java/com/example/moneymate/models/Transaction.java:36 | `setDescription` changes the description only |
| Models.SetType | app/src/main/java/com/example/moneymate/models/Transaction.java:37 | `setType` changes the type only |
| Models.SetCategory | app/src/main/java/com/example/moneymate/models/Transaction.java:38 | `setCategory` changes the category only |
| Models.SetDate | app/src/main/java/com/example/moneymate/models/Transaction.java:39 | `setDate` changes the date only |
| Models.SumConcat | app/src/main/java/com/example/moneymate/fragment/HomeFragment.java:307-313 | a running total over two lists is the total of the first plus the total of the second |
| Models.SumPermutation | app/src/main/java/com/example/moneymate/database/DatabaseHelper.java:168-190 | a total does not depend on row order, so `SUM` over the table equals the loop over any listing of it |
| Models.SumSplit | app/src/main/java/com/example/moneymate/fragment/HomeFragment.java:307-315 | the "income" total plus the "everything else" total is the sum of all amounts |
| Models.NonIncomeIsExpense | app/src/main/java/com/example/moneymate/database/DatabaseHelper.java:51 | on rows the CHECK constraint admits, "not income" (the screens' rule) and "type = expense" (the store's rule) give the same total |
| Models.SumNoneSelected | app/src/main/java/com/example/moneymate/database/DatabaseHelper.java:178-183 | a total over rows none of which qualify is 0, as an empty `SUM` reads |
| Models.Filter | app/src/main/java/com/example/moneymate/database/DatabaseHelper.java:243-244 | a `WHERE` keeps exactly the rows that satisfy it |
| Models.FilterSum | app/src/main/java/com/example/moneymate/database/DatabaseHelper.java:243-244 | summing over the filtered rows is summing over all rows with both conditions |
| Models.Totals | app/src/main/java/com/example/moneymate/fragment/HomeFragment.java:307-315 | income is the total of "income" rows and expense that of all others; balance is income minus expense; income plus expense is the sum of all amounts |
| Text.Trim | app/src/main/java/com/example/moneymate/fragment/AddTransactionFragment.java:240-246 | `trim()` strips leading and trailing characters up to space; the result is empty exactly when the text is blank |
| Text.ToLower | app/src/main/java/com/example/moneymate/fragment/AddTransactionFragment.java:248 | `toLowerCase()` keeps the length and lowers each ASCII letter |
| Text.LexConcat | app/src/main/java/com/example/moneymate/database/DatabaseHelper.java:94-95 | byte-wise text order on two equal-length prefixes: a prefix decides, ties fall to the rest |
| Text.PadOrder | app/src/main/java/com/example/moneymate/database/DatabaseHelper.java:39 | zero-padded numbers of one width sort as text exactly as they sort as numbers |
| Text.PadInjective | app/src/main/java/com/example/moneymate/database/DatabaseHelper.java:39 | zero-padded numbers of one width have equal text exactly when they are equal |
| Text.PadValue | app/src/main/java/com/example/moneymate/database/DatabaseHelper.java:110 | reading a zero-padded number back gives the number |
| Text.IndexFrom | app/src/main/java/com/example/moneymate/fragment/HomeFragment.java:155-156 | `indexOf` finds the first occurrence at or after a position, or reports that there is none |
| Text.IndexIn | app/src/main/java/com/example/moneymate/fragment/HomeFragment.java:159 | `List.indexOf` gives the first position holding the value, or -1 when none does |
| Dates.KeyRoundTrip | app/src/main/java/com/example/moneymate/database/DatabaseHelper.java:77-110 | parsing the stored `yyyy-MM-dd` text of a day gives the day back |
| Dates.KeyOrder | app/src/main/java/com/example/moneymate/database/DatabaseHelper.java:94-95 | the stored texts of two days compare as text exactly as the days compare in time, and are equal only for the same day |
| Dates.NextMonth | app/src/main/java/com/example/moneymate/fragment/MonthlyReportFragment.java:70-73 | one month later, with December rolling over into January of the next year |
| Dates.PrevMonth | app/src/main/java/com/example/moneymate/fragment/MonthlyReportFragment.java:65-68 | one month earlier, with January rolling back into December of the previous year |
| Dates.MonthIndexInjective | app/src/main/java/com/example/moneymate/fragment/MonthlyReportFragment.java:65-73 | two valid (year, month) pairs are the same month exactly when their month counts agree |
| Dates.NavigationRoundTrip | app/src/main/java/com/example/moneymate/fragment/MonthlyReportFragment.java:65-73 | next after previous, and previous after next, give back the month |
| Dates.MonthQueryExact | app/src/main/java/com/example/moneymate/database/DatabaseHelper.java:133-140 | a day's text lies `BETWEEN` the month's first and last day exactly when the day is in that year and month |
| CurrencyService.DefaultRates | app/src/main/java/com/example/moneymate/services/CurrencyService.java:182-198 | the fallback table is not empty, all its rates are positive, and EUR is 1.0 |
| CurrencyService.CodesHaveThreeLetters | app/src/main/java/com/example/moneymate/services/CurrencyService.java:50-72 | every supported code is three capital letters |
| CurrencyService.LabelsNameTheirCode | app/src/main/java/com/example/moneymate/services/CurrencyService.java:50-76 | every offered label is its code, " - " and a name, and is the label of that code; every supported code's label is offered |
| CurrencyService.ConversionTable | app/src/main/java/com/example/moneymate/services/CurrencyService.java:222-225 | an empty table gets the defaults installed; a non-empty one is used as it is |
| CurrencyService.ConvertCurrency | app/src/main/java/com/example/moneymate/services/CurrencyService.java:214-252 | equal codes give the amount with the table untouched; otherwise the table gets the defaults if it was empty, and a missing rate gives the amount back |
| CurrencyService.ConvertPreservesEuroValue | app/src/main/java/com/example/moneymate/services/CurrencyService.java:239-241 | with both rates known, the result is worth as many euros as the amount: `amount / rate[from] * rate[to]` |
| CurrencyService.ConvertOnTable | app/src/main/java/com/example/moneymate/services/CurrencyService.java:214-246 | the table after a conversion does not depend on the amount, and the value is the rate formula on that table |
| CurrencyService.ConvertLinear | app/src/main/java/com/example/moneymate/services/CurrencyService.java:239-241 | conversion maps sums to sums and differences to differences, and keeps zero and sign |
| CurrencyService.ConvertKeepsRatio | app/src/main/java/com/example/moneymate/services/CurrencyService.java:239-241 | conversion keeps the ratio of two amounts |
| CurrencyService.ConvertRoundTrip | app/src/main/java/com/example/moneymate/services/CurrencyService.java:214-246 | converting there and back on the resulting table gives the amount back, and the table does not change again |
| CurrencyService.ConvertInstallsDefaults | app/src/main/java/com/example/moneymate/services/CurrencyService.java:222-225 | converting between two codes with an empty table leaves rates in it, with EUR at 1.0 |
| CurrencyService.HandleApiFailure | app/src/main/java/com/example/moneymate/services/CurrencyService.java:161-180 | a non-empty table is kept and reported as success; an empty one gets the defaults, reported as a network error offline and as success online |
| CurrencyService.GetExchangeRates | app/src/main/java/com/example/moneymate/services/CurrencyService.java:103-156 | a fetched table replaces the old one with EUR set to 1.0 and is cached with the time; otherwise the old table is kept or the defaults installed; a network error fires exactly when the table was empty and the network was down; the error callback never fires |
| CurrencyService.CacheRates | app/src/main/java/com/example/moneymate/services/CurrencyService.java:200-212 | saving stores the table and the time |
| CurrencyService.LoadCachedRates | app/src/main/java/com/example/moneymate/services/CurrencyService.java:78-98 | the cached table is used only if less than an hour, strictly, has passed; otherwise the service starts empty |
| CurrencyService.CacheRoundTrip | app/src/main/java/com/example/moneymate/services/CurrencyService.java:83-143 | a table fetched at `t` is what a service started later sees exactly while less than an hour has passed |
| DatabaseHelper.FindId | app/src/main/java/com/example/moneymate/database/DatabaseHelper.java:193-218 | `WHERE id = ?` finds the row with the id, or reports that none has it |
| DatabaseHelper.AddTransaction | app/src/main/java/com/example/moneymate/database/DatabaseHelper.java:47-82 | an admitted type appends one row under the next AUTOINCREMENT id (counter plus one, larger than every stored id), the counter moves to it and the id is returned; any other type is refused with -1 and nothing changes; the schema's guarantees hold afterwards |
| DatabaseHelper.AddMovesBalance | app/src/main/java/com/example/moneymate/database/DatabaseHelper.java:69-82 | an insert moves the balance by the new row's signed amount |
| DatabaseHelper.Insert | app/src/main/java/com/example/moneymate/database/DatabaseHelper.java:94-95 | inserting one row into a listing keeps it in listing order and adds exactly that row |
| DatabaseHelper.SortListing | app/src/main/java/com/example/moneymate/database/DatabaseHelper.java:94-95 | the sorted rows are in listing order and are a permutation of the input |
| DatabaseHelper.GetAllTransactions | app/src/main/java/com/example/moneymate/database/DatabaseHelper.java:92-120 | every row exactly once, in listing order |
| DatabaseHelper.ListingFollowsQuery | app/src/main/java/com/example/moneymate/database/DatabaseHelper.java:94-95 | the listing is descending on the stored date text and, for equal text, descending on id |
| DatabaseHelper.GetTransactionsCount | app/src/main/java/com/example/moneymate/database/DatabaseHelper.java:221-231 | the count is the number of rows the listing returns |
| DatabaseHelper.MonthRows | app/src/main/java/com/example/moneymate/database/DatabaseHelper.java:139-140 | the `BETWEEN` filter keeps exactly the rows whose date text falls in the month, each as often as it is stored |
| DatabaseHelper.GetTransactionsForMonth | app/src/main/java/com/example/moneymate/database/DatabaseHelper.java:130-165 | the month query returns exactly the month's rows, each once, newest day first |
| DatabaseHelper.MonthQuerySelectsMonth | app/src/main/java/com/example/moneymate/database/DatabaseHelper.java:130-165 | a row is in the month query exactly when it is stored and dated in that calendar year and month |
| DatabaseHelper.BalanceOfListing | app/src/main/java/com/example/moneymate/database/DatabaseHelper.java:168-190 | income minus expense over the table equals the same over the listing, and equals "income minus everything else" |
| DatabaseHelper.Replace | app/src/main/java/com/example/moneymate/database/DatabaseHelper.java:193-208 | the row with the id takes the new record; every other row stays |
| DatabaseHelper.UpdateTransaction | app/src/main/java/com/example/moneymate/database/DatabaseHelper.java:193-208 | the row with the id takes all the record's fields and `true` is reported exactly when such a row exists; other rows are unchanged; a refused type fails only when a row would take it |
| DatabaseHelper.UpdateMovesBalance | app/src/main/java/com/example/moneymate/database/DatabaseHelper.java:193-208 | an update moves the balance by the new signed amount minus the old one |
| DatabaseHelper.DeleteTransaction | app/src/main/java/com/example/moneymate/database/DatabaseHelper.java:211-218 | the row with the id goes and `true` is reported exactly when it existed; the rows before and after it stay, in order, and the counter is kept; nothing changes otherwise |
| DatabaseHelper.DeleteMovesBalance | app/src/main/java/com/example/moneymate/database/DatabaseHelper.java:211-218 | a delete takes the row's signed amount out of the balance |
| DatabaseHelper.AddThenDelete | app/src/main/java/com/example/moneymate/database/DatabaseHelper.java:69-218 | deleting by the id an insert returned restores the rows |
| DatabaseHelper.FindCategory | app/src/main/java/com/example/moneymate/database/DatabaseHelper.java:243-244 | the group of a category is found, or none has it |
| DatabaseHelper.SpentAdd | app/src/main/java/com/example/moneymate/database/DatabaseHelper.java:243-244 | adding to one group adds the same to the groups' total |
| DatabaseHelper.Group | app/src/main/java/com/example/moneymate/database/DatabaseHelper.java:243-244 | `GROUP BY category` with `SUM(amount)`: one group per category present and none other, each with its category's total, all together the sum of all amounts |
| DatabaseHelper.GetCategorySpending | app/src/main/java/com/example/moneymate/database/DatabaseHelper.java:234-258 | distinct categories, each the category of some expense of the month and holding the total of the month's expenses in it; together they hold the month's expenses |
| DatabaseHelper.NoSpendingExactly | app/src/main/java/com/example/moneymate/database/DatabaseHelper.java:234-258 | the category query is empty exactly when the month holds no expense |
| DatabaseHelper.CategoriesOfMonth | app/src/main/java/com/example/moneymate/database/DatabaseHelper.java:234-258 | a category has a group exactly when some stored expense of that calendar month carries it |
| HomeFragment.ConvertSummary | app/src/main/java/com/example/moneymate/fragment/HomeFragment.java:320-329 | balance, income and expense are each converted from IDR to the display currency on their own |
| HomeFragment.ShowSummary | app/src/main/java/com/example/moneymate/fragment/HomeFragment.java:302-370 | in IDR, or without a service, the figures are shown as they are; otherwise rates are fetched, and exactly on success every figure is converted from IDR with the rupiah balance noted; a failure leaves the figures in rupiah with its note; the table stays positive |
| HomeFragment.ShownBalanceConsistent | app/src/main/java/com/example/moneymate/fragment/HomeFragment.java:315-329 | whatever the fetch does, the shown balance is the shown income minus the shown expense |
| HomeFragment.UpdateSummary | app/src/main/java/com/example/moneymate/fragment/HomeFragment.java:302-370 | the card is what the summary display makes of the list's income and expense totals and their difference: those figures converted from IDR exactly when the fetch succeeds, with the same table and note; the shown balance is always the shown income minus the shown expense |
| HomeFragment.RedExactlyWhenNegative | app/src/main/java/com/example/moneymate/fragment/HomeFragment.java:372-388 | the balance is shown in red exactly when the rupiah balance is negative, in any display currency |
| HomeFragment.LabelCode | app/src/main/java/com/example/moneymate/fragment/HomeFragment.java:155-156 | a label without " - " is its own code; otherwise the code is the text before the first " - "; a label made only of separators has none |
| HomeFragment.LabelCodeOfLabel | app/src/main/java/com/example/moneymate/fragment/HomeFragment.java:152-157 | the code read off a supported currency's label is that currency |
| HomeFragment.LabelCodeOfOffered | app/src/main/java/com/example/moneymate/fragment/HomeFragment.java:152-157 | the code read off any offered label is the key it is listed under |
| HomeFragment.LabelCodes | app/src/main/java/com/example/moneymate/fragment/HomeFragment.java:153-157 | the codes of all labels, one per label in order, unless one of them has none |
| HomeFragment.CurrencyDialog | app/src/main/java/com/example/moneymate/fragment/HomeFragment.java:141-232 | on success the dialog lists the labels' codes; on an error it lists IDR, USD, EUR, JPY, GBP; a network error shows no dialog; the checked item is the display currency or none |
| HomeFragment.OfferedLabelsGiveCodes | app/src/main/java/com/example/moneymate/fragment/HomeFragment.java:152-194 | for the service's labels the dialog opens with each label's supported code |
| HomeFragment.DeleteTransaction | app/src/main/java/com/example/moneymate/fragment/HomeFragment.java:419-445 | the list changes only when the store reports a removed row, and is then the store's listing |
| HomeFragment.DeleteRemovesFromList | app/src/main/java/com/example/moneymate/fragment/HomeFragment.java:426-435 | deleting a listed transaction removes exactly that transaction from the list on screen |
| AddTransactionFragment.CalculateCurrentBalance | app/src/main/java/com/example/moneymate/fragment/AddTransactionFragment.java:345-358 | the balance over the listing when a helper is held or can be opened and the query does not throw; 0 when no helper can be had or the query throws |
| AddTransactionFragment.WithHelper | app/src/main/java/com/example/moneymate/fragment/AddTransactionFragment.java:347-349 | a missing helper is created exactly when one can be opened; nothing else changes |
| AddTransactionFragment.AmountInIdr | app/src/main/java/com/example/moneymate/fragment/AddTransactionFragment.java:251-263 | the amount is converted from the display currency to IDR only with a service and a display currency other than IDR |
| AddTransactionFragment.Record | app/src/main/java/com/example/moneymate/fragment/AddTransactionFragment.java:276 | the record has id 0, the IDR amount, the trimmed description, the lower-cased type, the category and the day |
| AddTransactionFragment.SaveTransaction | app/src/main/java/com/example/moneymate/fragment/AddTransactionFragment.java:232-300 | every refusal before the insert leaves the table as it was; a helper once held stays, and a new one appears only through an expense's balance read; an insert is reached only with a helper |
| AddTransactionFragment.CheckAndInsert | app/src/main/java/com/example/moneymate/fragment/AddTransactionFragment.java:265-292 | an expense over the balance read is refused (the helper that read may have opened stays); otherwise, and for income, the insert runs; settings and the service are untouched |
| AddTransactionFragment.Insert | app/src/main/java/com/example/moneymate/fragment/AddTransactionFragment.java:274-292 | without a helper the outcome is "no database" and nothing changes; with one the store inserts, and the save succeeds exactly when the type is admitted, under the next id |
| AddTransactionFragment.CheckAndInsertSaves | app/src/main/java/com/example/moneymate/fragment/AddTransactionFragment.java:265-292 | the check and insert succeed exactly when an expense fits the balance read, a helper is held or opened by that read, and the type is admitted; the row is appended with its new id |
| AddTransactionFragment.SavedExactly | app/src/main/java/com/example/moneymate/fragment/AddTransactionFragment.java:232-300 | a save succeeds exactly when the form is there, amount and description are not blank, the amount parses, an expense fits the balance read, a helper is held (or, for an expense, opened by the balance read) and the type is admitted; the stored row is the record with its new id |
| AddTransactionFragment.IncomeNeverChecked | app/src/main/java/com/example/moneymate/fragment/AddTransactionFragment.java:265-266 | income is never refused for the balance |
| AddTransactionFragment.ExpenseGuard | app/src/main/java/com/example/moneymate/fragment/AddTransactionFragment.java:265-272 | past the form checks, an expense is refused exactly when its IDR amount exceeds the balance; an equal amount passes |
| AddTransactionFragment.NoStoreRefusesExpense | app/src/main/java/com/example/moneymate/fragment/AddTransactionFragment.java:345-358 | when no helper can be had or the balance query throws, the balance reads 0, so every positive expense is refused |
| AddTransactionFragment.LazyHelperSavesOnlyExpenses | app/src/main/java/com/example/moneymate/fragment/AddTransactionFragment.java:265-292 | with no helper but one that can be opened, an expense is saved exactly when it fits the table's balance, while income ends at "no database" |
| AddTransactionFragment.ExpenseNeverOverdraws | app/src/main/java/com/example/moneymate/fragment/AddTransactionFragment.java:265-292 | a saved expense never takes a balance that was read below zero; when the read threw, the expense was at most 0 and the balance does not fall |
| AddTransactionFragment.CheckedExpenseFits | app/src/main/java/com/example/moneymate/fragment/AddTransactionFragment.java:265-292 | the same at the level of the check and insert |
| MonthlyReportFragment.LoadMonthlyData | app/src/main/java/com/example/moneymate/fragment/MonthlyReportFragment.java:82-143 | the count is the number of the month's rows; the empty state shows exactly when there are none; income and expense are the month's totals by type; the balance is their difference; an error shows zeros and the empty state |
| MonthlyReportFragment.MonthRowsValid | app/src/main/java/com/example/moneymate/database/DatabaseHelper.java:47-54 | the month's rows have admitted types, as every stored row does |
| MonthlyReportFragment.Navigate | app/src/main/java/com/example/moneymate/fragment/MonthlyReportFragment.java:65-73 | the buttons move the cursor by exactly one month back or forward |
| ChartActivity.CurrencyFormat | app/src/main/java/com/example/moneymate/activitiy/ChartActivity.java:158-175 | the display currency stays something other than IDR exactly when it is asked for, the device is online and the code is a known currency |
| ChartActivity.Shown | app/src/main/java/com/example/moneymate/activitiy/ChartActivity.java:397-404 | an IDR amount as shown in the display currency: unchanged in IDR, and zero exactly when the amount is |
| ChartActivity.Percent | app/src/main/java/com/example/moneymate/activitiy/ChartActivity.java:406 | a share is defined exactly when the total is not zero |
| ChartActivity.Wedges | app/src/main/java/com/example/moneymate/activitiy/ChartActivity.java:384-407 | one wedge per category, in order, each its shown amount as a percentage of the total |
| ChartActivity.TotalExpense | app/src/main/java/com/example/moneymate/activitiy/ChartActivity.java:286-289 | the total expense is the sum of the category amounts |
| ChartActivity.UpdateChartData | app/src/main/java/com/example/moneymate/activitiy/ChartActivity.java:280-371 | offline forces IDR; the total is the categories' sum shown in the display currency; the wedges are against that total; in IDR or with rates at hand no fetch happens and no refresh button shows; otherwise the pie is drawn on the fetched table and the refresh button shows exactly when the fetch did not succeed |
| ChartActivity.LoadChartData | app/src/main/java/com/example/moneymate/activitiy/ChartActivity.java:208-248 | offline forces IDR; a pie is only drawn from the month's category totals |
| ChartActivity.EmptyExactly | app/src/main/java/com/example/moneymate/activitiy/ChartActivity.java:223-237 | the empty state shows exactly when there is no database or the month holds no expense |
| ChartActivity.ShownAdds | app/src/main/java/com/example/moneymate/activitiy/ChartActivity.java:397-404 | showing a sum gives the sum of what is shown |
| ChartActivity.WedgeSum | app/src/main/java/com/example/moneymate/activitiy/ChartActivity.java:393-407 | the wedges' percentages add up to the shown sum of their amounts over the total |
| ChartActivity.WedgeShare | app/src/main/java/com/example/moneymate/activitiy/ChartActivity.java:397-406 | a wedge's percentage is the same in every display currency: the category's share of the rupiah total |
| ChartActivity.WedgeShares | app/src/main/java/com/example/moneymate/activitiy/ChartActivity.java:393-407 | against the shown total, each wedge is its group's share of the groups' total |
| ChartActivity.WedgesMakeHundred | app/src/main/java/com/example/moneymate/activitiy/ChartActivity.java:393-407 | against the shown total, the wedges add up to 100 percent |
| ChartActivity.PieTotal | app/src/main/java/com/example/moneymate/activitiy/ChartActivity.java:286-299 | the pie's total is the month's expenses shown in the display currency, with one wedge per category in order |
| ChartActivity.PieIsWhole | app/src/main/java/com/example/moneymate/activitiy/ChartActivity.java:286-407 | with a non-zero total, each wedge of the pie is its category's share and the wedges make 100 percent, in any display currency |
| ChartActivity.OfflineInRupiah | app/src/main/java/com/example/moneymate/activitiy/ChartActivity.java:281-299 | offline nothing is fetched or converted: the pie shows the month's expenses in rupiah |
| ChartActivity.Previous | app/src/main/java/com/example/moneymate/activitiy/ChartActivity.java:120-128 | the previous-month button moves the month back by exactly one |
| ChartActivity.Following | app/src/main/java/com/example/moneymate/activitiy/ChartActivity.java:130-138 | the next-month button moves the month on by exactly one |
| ChartActivity.OnResume | app/src/main/java/com/example/moneymate/activitiy/ChartActivity.java:453-469 | nothing changes when the stored display currency is the one in effect; otherwise it is put into effect and the chart reloaded |
| ChartActivity.ResumeSettles | app/src/main/java/com/example/moneymate/activitiy/ChartActivity.java:457-464 | once the stored currency is in effect a further resume changes nothing; while it is forced to rupiah every resume reloads |
| CurrencyActivity.ExtractCode | app/src/main/java/com/example/moneymate/activitiy/CurrencyActivity.java:358-363 | the first three characters of a label of length three or more; "USD" for a shorter or missing one |
| CurrencyActivity.ExtractCodeOfLabel | app/src/main/java/com/example/moneymate/activitiy/CurrencyActivity.java:358-363 | the code read off a supported currency's label is that currency |
| CurrencyActivity.PrecisionFor | app/src/main/java/com/example/moneymate/activitiy/CurrencyActivity.java:369-379 | amounts under 0.01 get extended decimals first; JPY, KRW, IDR and VND get none; the rest two |
| CurrencyActivity.FormatResult | app/src/main/java/com/example/moneymate/activitiy/CurrencyActivity.java:365-382 | the result is the number at the chosen precision followed by a space and the code |
| CurrencyActivity.CodeOfResult | app/src/main/java/com/example/moneymate/activitiy/CurrencyActivity.java:381 | a three-letter code can be read back off the end of a formatted result |
| CurrencyActivity.Selected | app/src/main/java/com/example/moneymate/activitiy/CurrencyActivity.java:344-348 | a spinner has a selection exactly when its position names a label |
| CurrencyActivity.ResultLine | app/src/main/java/com/example/moneymate/activitiy/CurrencyActivity.java:282-356 | a conversion happens exactly when both currencies are chosen, rates are there and a non-negative number is typed; it is then the service's conversion, shown with the target's precision, and leaves the table as it was |
| CurrencyActivity.Convert | app/src/main/java/com/example/moneymate/activitiy/CurrencyActivity.java:282-335 | converting touches only the result line, and the result is converted under exactly the same conditions |
| CurrencyActivity.ConvertChecksInOrder | app/src/main/java/com/example/moneymate/activitiy/CurrencyActivity.java:289-353 | the refusals come in order: selection, rates, blank amount, no number, negative number |
| CurrencyActivity.ConvertedNotNegative | app/src/main/java/com/example/moneymate/activitiy/CurrencyActivity.java:298-321 | a converted amount is never negative |
| CurrencyActivity.EditAmount | app/src/main/java/com/example/moneymate/activitiy/CurrencyActivity.java:118-122 | typing changes the amount, and the result is recomputed only once rates are loaded |
| CurrencyActivity.Select | app/src/main/java/com/example/moneymate/activitiy/CurrencyActivity.java:180-184 | choosing a currency changes the positions, and the result is recomputed only once rates are loaded |
| CurrencyActivity.Swap | app/src/main/java/com/example/moneymate/activitiy/CurrencyActivity.java:384-402 | the two positions trade places and nothing else but the result changes; with rates loaded and an amount typed the result is the conversion of the swapped pair, otherwise it stays |
| CurrencyActivity.SwapTwice | app/src/main/java/com/example/moneymate/activitiy/CurrencyActivity.java:384-402 | swapping twice restores the pair, with the result the original pair gives |
| CurrencyActivity.SwapConvertsBack | app/src/main/java/com/example/moneymate/activitiy/CurrencyActivity.java:384-402 | swapping and entering the converted value converts back to the amount first typed, in the first currency |
| CurrencyActivity.ShowNoNetwork | app/src/main/java/com/example/moneymate/activitiy/CurrencyActivity.java:129-146 | the offline pane shows, and rates count as loaded exactly when the table has some, and then what is typed is converted again; with no table the offline message shows; the typed amount, the currencies and the table stay as they were |
| CurrencyActivity.BeginLoad | app/src/main/java/com/example/moneymate/activitiy/CurrencyActivity.java:223-227 | while a load is under way, rates count as not loaded, the refresh button is hidden and the waiting message shows; nothing else on screen changes |
| CurrencyActivity.Settle | app/src/main/java/com/example/moneymate/activitiy/CurrencyActivity.java:231-279 | each callback takes the new table, marks rates as loaded, shows the refresh button and converts what is typed; a network error also shows the offline pane; the typed amount is kept |
| CurrencyActivity.LoadExchangeRates | app/src/main/java/com/example/moneymate/activitiy/CurrencyActivity.java:216-280 | offline, the offline pane at once; online, rates are not loaded during the fetch and are loaded after it, on the fetched table, with the refresh button shown and what is typed converted again; the typed amount and the currencies are kept |
| CurrencyActivity.Retry | app/src/main/java/com/example/moneymate/activitiy/CurrencyActivity.java:89-96 | offline nothing changes on screen; online the content pane returns and rates are loaded onto the fetched table, going back to the offline pane only on a network error, with the refresh button shown and what is typed converted again; the typed amount is kept |
| CurrencyActivity.LoadedMeansRates | app/src/main/java/com/example/moneymate/activitiy/CurrencyActivity.java:129-280 | after any load, rates count as loaded exactly when the table holds rates |
| CurrencyActivity.InitialPosition | app/src/main/java/com/example/moneymate/activitiy/CurrencyActivity.java:194-205 | a spinner is set to the label when the adapter has it, and otherwise stays on its first item |
| CurrencyActivity.OnCreate | app/src/main/java/com/example/moneymate/activitiy/CurrencyActivity.java:46-59 | the converter starts on the cached table with the spinners set to rupiah and US dollar; online it then loads rates onto the table the fetch leaves, offline it shows the offline pane on the cached table |
| CurrencyActivity.StartsFromRupiahToDollar | app/src/main/java/com/example/moneymate/activitiy/CurrencyActivity.java:174-175 | with every offered label in the spinners, the converter starts from IDR to USD |
| MainActivity.SavedTheme | app/src/main/java/com/example/moneymate/activitiy/MainActivity.java:60 | with no saved theme the theme is light |
| MainActivity.NightModeOf | app/src/main/java/com/example/moneymate/activitiy/MainActivity.java:62-72 | dark turns night mode on, system follows the device, and any other name turns it off |
| MainActivity.CheckedItem | app/src/main/java/com/example/moneymate/activitiy/MainActivity.java:159-170 | the dialog checks item 1 exactly for dark, 2 exactly for system, and 0 otherwise |
| MainActivity.ThemeAt | app/src/main/java/com/example/moneymate/activitiy/MainActivity.java:175-187 | item 1 is dark, item 2 is system, and any other position is light |
| MainActivity.ThemeIndexRoundTrip | app/src/main/java/com/example/moneymate/activitiy/MainActivity.java:159-187 | the theme-to-item and item-to-theme mappings are inverse on the three themes and the three items |
| MainActivity.CheckedItemMatchesMode | app/src/main/java/com/example/moneymate/activitiy/MainActivity.java:58-187 | the item the dialog checks stands for a theme with the night mode in force |
| MainActivity.OnCreate | app/src/main/java/com/example/moneymate/activitiy/MainActivity.java:34-37 | the saved theme is applied at start-up |
| MainActivity.SelectTheme | app/src/main/java/com/example/moneymate/activitiy/MainActivity.java:190-193 | the chosen theme is saved first and then applied, so the mode in force is the saved theme's |
| MainActivity.SelectionSticks | app/src/main/java/com/example/moneymate/activitiy/MainActivity.java:159-193 | after a choice the dialog reopens on the chosen item, and choosing it again changes nothing |
| MainActivity.RestartKeepsChoice | app/src/main/java/com/example/moneymate/activitiy/MainActivity.java:34-193 | a restart applies the theme last chosen |

## Left out

- Amounts and rates are `real`, not IEEE `double`. Rounding is not modelled, and neither is the `(float)` cast of a share at `activitiy/ChartActivity.java:406`. Rates are taken to be positive, so a division by a zero rate (Infinity or NaN in Java) does not arise.
- ChartActivity.Percent: a zero total gives no share (`None`), where Java divides by zero and draws NaN or Infinity wedges.
- Exceptions and `null` are modelled only where the code turns them into a visible outcome:
  - a failed parse is `None`;
  - a missing store is `None`; in `AddTransactionFragment` the helper is a flag, with whether one can be opened and whether the balance query throws as inputs;
  - a failed insert returns -1;
  - an update refused by the CHECK constraint is `ConstraintFailure`.

  Non-null columns hold by construction. The `ClassCastException` branch of `applyTheme` is not modelled.
- ChartActivity.LoadChartData: the catch at `activitiy/ChartActivity.java:241-247` is not modelled. When the category query throws, Java forces `displayCurrency` to IDR and shows the empty state. In the model, `store: None` stands only for a missing helper (lines 223-227).
- `Text.ToLower`: lowers ASCII letters only, not the full Unicode case mapping of `toLowerCase()`.
- Ids are unbounded integers; the 64-bit AUTOINCREMENT counter and the `int` id of `Transaction` do not wrap.
- Dates are calendar days in years 1 to 9999 (Julian leap years up to 1582). The time of day that `yyyy-MM-dd` drops, and the parsing of malformed stored text, are not modelled.
- Two orders SQL leaves open are fixed by assumption:
  - `getTransactionsForMonth` orders only by date; the model breaks ties by id, descending, as the full listing does;
  - `GROUP BY` is modelled in order of first appearance. No property depends on either.
- The order of `getAvailableCurrencies` comes from a `HashMap`. Labels are a set in the service and any sequence in the screens.
- Android views, dialogs, toasts, colours, text rendering and the chart library are not modelled. `DecimalFormat` is a parameter (`render`) of `CurrencyActivity.FormatResult`. The "last updated" text is not modelled.
- `addTransactionAsync`, `getAllTransactionsAsync` and the executor are concurrency; the synchronous methods carry the semantics.
- `NetworkUtils` is a boolean. `ChartActivity` reads the network several times in one load; the model uses one value per load (`Env.online`), plus the re-check inside `handleApiFailure`. `Env.isoCodes` stands for the codes `java.util.Currency` accepts.
- Retrofit, Gson and `SharedPreferences` are inputs and outputs:
  - the API answer is `Fetched(rates)` or `Failed`;
  - the cache is a (table, time) pair.
- The `onError` callback of `CurrencyService` is never invoked (`CurrencyService.GetExchangeRates` proves it), so the screens' error branches are unreachable. They are modelled where the code is simple (`HomeFragment.CurrencyDialog`, `HomeFragment.ShowSummary`). In `ChartActivity` they are left out; there the error path would draw converted wedges against an unconverted total.
- ChartActivity.UpdateChartData: assumes the screen holds a conversion service, as `initializeComponents` creates one before any load.
- ChartActivity.PieIsWhole: the shares are stated against the groups' total, which `DatabaseHelper.GetCategorySpending` proves to be the month's expense total.
- CurrencyActivity.InitialPosition: a spinner whose adapter lacks the label keeps position 0, which is the framework default and not code of the app.
- AddTransactionFragment.SaveTransaction: clearing the form and navigating home after a save are UI. Only the outcome and the store are modelled.
- The "refresh" button of `CurrencyActivity` shows the offline pane when offline and otherwise calls `loadExchangeRates`, which checks the network again; that is `CurrencyActivity.LoadExchangeRates`. The toast of the retry button when offline is UI.
- Not part of this model:
  - `TransactionAdapter` and `TransactionDetailActivity` (presentation of the same conversion);
  - `ApiService` and `ExchangeRateResponse`;
  - the stale copies of `ChartActivity`, `DatabaseHelper` and `MainActivity` in the root package.

=== FILE: add_transaction.dfy ===
/** `AddTransactionFragment`: the checks `saveTransaction` runs on the form,
    the conversion of the entered amount to rupiah, the balance guard for
    expenses and the insert. */
module AddTransactionFragment {
  import opened Wrappers
  import opened Text
  import opened Dates
  import opened Models
  import opened CurrencyService
  import DatabaseHelper

  /** What the form holds when Save is pressed. `available` is false when
      one of its input views is missing; `parsed` is what
      `Double.parseDouble` makes of the trimmed amount text (`None` when it
      throws). */
  datatype Form = Form(
    available: bool,
    amountText: string,
    description: string,
    typeLabel: string,
    category: string,
    date: CalendarDate,
    parsed: Option<real>)

  /** Where the fragment stands. `db` is the table on the device and
      `helper` whether the fragment holds a `DatabaseHelper` on it;
      `canOpen` is whether `new DatabaseHelper(getContext())` would succeed
      now (false when the fragment is detached or the constructor throws);
      `balanceFails` is whether `getCurrentBalance` throws. The conversion
      service is `None` when none was created, else its table. */
  datatype Context = Context(
    db: DatabaseHelper.Store,
    helper: bool,
    canOpen: bool,
    balanceFails: bool,
    service: Option<Rates>,
    display: string)

  predicate ValidContext(c: Context) {
    && DatabaseHelper.Valid(c.db)
    && (c.service.Some? ==> PositiveRates(c.service.value))
  }

  /** The context once `calculateCurrentBalance` has run: a missing helper
      is created when it can be. */
  function WithHelper(c: Context): (r: Context)
    ensures r.helper <==> c.helper || c.canOpen
    ensures r.db == c.db && r.canOpen == c.canOpen && r.balanceFails == c.balanceFails
    ensures r.service == c.service && r.display == c.display
  {
    c.(helper := c.helper || c.canOpen)
  }

  /** `calculateCurrentBalance`: the balance of the table when a helper is
      held or can be created and the query does not throw; 0 otherwise. */
  function CalculateCurrentBalance(c: Context): (b: real)
    requires DatabaseHelper.Valid(c.db)
    ensures !c.helper && !c.canOpen ==> b == 0.0
    ensures c.balanceFails ==> b == 0.0
    ensures (c.helper || c.canOpen) && !c.balanceFails ==>
      b == Balance(DatabaseHelper.GetAllTransactions(c.db))
  {
    if (c.helper || c.canOpen) && !c.balanceFails then
      DatabaseHelper.BalanceOfListing(c.db);
      DatabaseHelper.GetCurrentBalance(c.db)
    else 0.0
  }

  /** The amount in rupiah and the service's table afterwards: converted
      from the display currency only when there is a service and the
      display currency is not IDR. */
  function AmountInIdr(c: Context, amount: real): (r: Conversion)
    requires ValidContext(c)
    ensures c.service.None? || c.display == "IDR" ==> r.value == amount
    ensures c.service.Some? ==> PositiveRates(r.rates)
    ensures c.service.Some? && c.display != "IDR" ==>
      r == ConvertCurrency(c.service.value, amount, c.display, "IDR")
  {
    match c.service
    case Some(rates) =>
      if c.display != "IDR" then ConvertCurrency(rates, amount, c.display, "IDR")
      else Conversion(rates, amount)
    case None => Conversion(map[], amount)
  }

  /** How a save ends. */
  datatype Outcome =
    | FormUnavailable
    | MissingFields
    | InvalidNumber
    | InsufficientBalance
    | NoDatabase
    | SaveFailed
    | Saved(id: int)

  /** The outcome and the fragment's context afterwards. On `Saved` the
      form is cleared and the app returns to the home screen. */
  datatype Save = Save(outcome: Outcome, context: Context)

  /** The record handed to the store: id 0, the rupiah amount, the trimmed
      description, the lower-cased type, the category and the day. */
  function Record(f: Form, idrAmount: real): (t: Transaction)
    ensures t.id == 0 && t.amount == idrAmount
    ensures t.description == Trim(f.description) && t.kind == ToLower(f.typeLabel)
    ensures t.category == f.category && t.date == f.date
  {
    Transaction(0, idrAmount, Trim(f.description), ToLower(f.typeLabel), f.category, f.date)
  }

  /** `saveTransaction`. An expense first reads the balance, which may
      create the missing helper that the insert then uses. */
  function SaveTransaction(c: Context, f: Form): (r: Save)
    requires ValidContext(c)
    ensures ValidContext(r.context)
    ensures r.context.display == c.display && r.context.canOpen == c.canOpen
    ensures r.context.balanceFails == c.balanceFails
    ensures c.helper ==> r.context.helper
    ensures r.context.helper ==> c.helper || (ToLower(f.typeLabel) == Expense && c.canOpen)
    ensures !r.outcome.Saved? && !r.outcome.SaveFailed? ==> r.context.db == c.db
    ensures r.outcome.Saved? || r.outcome.SaveFailed? ==> r.context.helper
  {
    if !f.available then Save(FormUnavailable, c)
    else if Trim(f.amountText) == [] || Trim(f.description) == [] then Save(MissingFields, c)
    else match f.parsed
      case None => Save(InvalidNumber, c)
      case Some(amount) =>
        var conv := AmountInIdr(c, amount);
        var c1 := if c.service.Some? then c.(service := Some(conv.rates)) else c;
        CheckAndInsert(c1, Record(f, conv.value))
  }

  /** The balance check for an expense, then the insert. */
  function CheckAndInsert(c: Context, t: Transaction): (r: Save)
    requires ValidContext(c)
    ensures ValidContext(r.context)
    ensures r.context.display == c.display && r.context.service == c.service
    ensures r.context.canOpen == c.canOpen && r.context.balanceFails == c.balanceFails
    ensures c.helper ==> r.context.helper
    ensures r.context.helper ==> c.helper || (t.kind == Expense && c.canOpen)
    ensures !r.outcome.Saved? && !r.outcome.SaveFailed? ==> r.context.db == c.db
    ensures r.outcome.Saved? || r.outcome.SaveFailed? ==> r.context.helper
    ensures t.kind != Expense ==> r == Insert(c, t)
    ensures t.kind == Expense && t.amount > CalculateCurrentBalance(c) ==>
      r == Save(InsufficientBalance, WithHelper(c))
    ensures t.kind == Expense && t.amount <= CalculateCurrentBalance(c) ==>
      r == Insert(WithHelper(c), t)
  {
    if t.kind == Expense then
      if t.amount > CalculateCurrentBalance(c) then Save(InsufficientBalance, WithHelper(c))
      else Insert(WithHelper(c), t)
    else Insert(c, t)
  }

  /** The check and the insert succeed exactly when an expense fits in
      the balance read, a helper is held or (for an expense) opened by that
      read, and the store accepts the type; the row is then appended under
      the next id. */
  lemma CheckAndInsertSaves(c: Context, t: Transaction)
    requires ValidContext(c)
    ensures var r := CheckAndInsert(c, t);
      r.outcome.Saved? <==>
        && (t.kind == Expense ==> t.amount <= CalculateCurrentBalance(c))
        && (c.helper || (t.kind == Expense && c.canOpen))
        && ValidType(t.kind)
    ensures var r := CheckAndInsert(c, t);
      r.outcome.Saved? ==> r.context.db.rows == c.db.rows + [t.(id := r.outcome.id)]
  {
  }

  /** The balance read does not depend on the conversion service. */
  lemma BalanceIgnoresService(c: Context, rates: Rates)
    requires DatabaseHelper.Valid(c.db)
    ensures CalculateCurrentBalance(c.(service := Some(rates))) == CalculateCurrentBalance(c)
  {
  }

  /** An expense that passes the check leaves a balance read from the
      table at or above zero, and one that passes a failed read (which
      gives 0) does not lower the balance. */
  lemma CheckedExpenseFits(c: Context, t: Transaction)
    requires ValidContext(c) && t.kind == Expense
    ensures var r := CheckAndInsert(c, t);
      r.outcome.Saved? && !c.balanceFails ==> Balance(r.context.db.rows) >= 0.0
    ensures var r := CheckAndInsert(c, t);
      r.outcome.Saved? && c.balanceFails ==> Balance(r.context.db.rows) >= Balance(c.db.rows)
  {
    var r := CheckAndInsert(c, t);
    if r.outcome.Saved? {
      assert t.amount <= CalculateCurrentBalance(c);
      assert r.context.db.rows == DatabaseHelper.AddTransaction(c.db, t).store.rows;
      DatabaseHelper.BalanceOfListing(c.db);
      DatabaseHelper.AddMovesBalance(c.db, t);
    }
  }

  /** The end of `saveTransaction`: without a helper nothing is stored;
      otherwise the insert runs and reports its id. */
  function Insert(c: Context, t: Transaction): (r: Save)
    requires ValidContext(c)
    ensures ValidContext(r.context)
    ensures r.context.helper == c.helper && r.context.canOpen == c.canOpen
    ensures r.context.balanceFails == c.balanceFails
    ensures r.context.service == c.service && r.context.display == c.display
    ensures !c.helper ==> r == Save(NoDatabase, c)
    ensures c.helper ==> r.context.db == DatabaseHelper.AddTransaction(c.db, t).store
    ensures c.helper ==> (r.outcome.Saved? <==> ValidType(t.kind))
    ensures r.outcome.Saved? ==>
      r.outcome.id == c.db.lastId + 1 && r.context.db.rows == c.db.rows + [t.(id := r.outcome.id)]
  {
    if !c.helper then Save(NoDatabase, c)
    else
      var ins := DatabaseHelper.AddTransaction(c.db, t);
      var c2 := c.(db := ins.store);
      if ins.id > 0 then Save(Saved(ins.id), c2) else Save(SaveFailed, c2)
  }

  /** A save succeeds exactly when every check passes, whatever order they
      are read in: the form is there, amount and description are not blank,
      the amount parses, an expense fits in the balance read, a helper is
      held (or, for an expense, was created by the balance read), and the
      store accepts the type. The stored row is the record with the id the
      store assigned. */
  lemma SavedExactly(c: Context, f: Form)
    requires ValidContext(c)
    ensures var r := SaveTransaction(c, f);
      r.outcome.Saved? <==>
        && f.available
        && !Blank(f.amountText) && !Blank(f.description)
        && f.parsed.Some?
        && (ToLower(f.typeLabel) == Expense ==>
              AmountInIdr(c, f.parsed.value).value <= CalculateCurrentBalance(c))
        && (c.helper || (ToLower(f.typeLabel) == Expense && c.canOpen))
        && ValidType(ToLower(f.typeLabel))
    ensures var r := SaveTransaction(c, f);
      r.outcome.Saved? ==>
        r.context.db.rows
           == c.db.rows + [Record(f, AmountInIdr(c, f.parsed.value).value).(id := r.outcome.id)]
  {
    if f.available && !Blank(f.amountText) && !Blank(f.description) && f.parsed.Some? {
      var conv := AmountInIdr(c, f.parsed.value);
      var c1 := if c.service.Some? then c.(service := Some(conv.rates)) else c;
      BalanceIgnoresService(c, conv.rates);
      CheckAndInsertSaves(c1, Record(f, conv.value));
    }
  }

  /** Income is never held back by the balance. */
  lemma IncomeNeverChecked(c: Context, f: Form)
    requires ValidContext(c) && ToLower(f.typeLabel) != Expense
    ensures SaveTransaction(c, f).outcome != InsufficientBalance
  {
  }

  /** Past the form checks, an expense is refused exactly when its rupiah
      amount exceeds the balance read; an equal amount is allowed. */
  lemma ExpenseGuard(c: Context, f: Form)
    requires ValidContext(c) && f.available && f.parsed.Some?
    requires !Blank(f.amountText) && !Blank(f.description)
    requires ToLower(f.typeLabel) == Expense
    ensures SaveTransaction(c, f).outcome == InsufficientBalance
        <==> AmountInIdr(c, f.parsed.value).value > CalculateCurrentBalance(c)
  {
    var conv := AmountInIdr(c, f.parsed.value);
    BalanceIgnoresService(c, conv.rates);
  }

  /** When no helper can be had, or the balance query throws, the balance
      reads as 0, so every positive expense is refused. */
  lemma NoStoreRefusesExpense(c: Context, f: Form)
    requires ValidContext(c) && f.available && f.parsed.Some?
    requires (!c.helper && !c.canOpen) || c.balanceFails
    requires !Blank(f.amountText) && !Blank(f.description)
    requires ToLower(f.typeLabel) == Expense && AmountInIdr(c, f.parsed.value).value > 0.0
    ensures SaveTransaction(c, f).outcome == InsufficientBalance
  {
  }

  /** Without a helper, only an expense can be saved: its balance read
      opens the database, while income ends at "no database". */
  lemma LazyHelperSavesOnlyExpenses(c: Context, f: Form)
    requires ValidContext(c) && !c.helper && c.canOpen && !c.balanceFails
    requires f.available && f.parsed.Some? && !Blank(f.amountText) && !Blank(f.description)
    ensures ToLower(f.typeLabel) == Expense ==>
      (SaveTransaction(c, f).outcome.Saved?
       <==> AmountInIdr(c, f.parsed.value).value <= Balance(c.db.rows))
    ensures ToLower(f.typeLabel) != Expense ==> SaveTransaction(c, f).outcome == NoDatabase
  {
    DatabaseHelper.BalanceOfListing(c.db);
    SavedExactly(c, f);
  }

  /** A saved expense never takes a balance that was read below zero; when
      the read threw, the expense was at most 0 and the balance does not
      fall. */
  lemma ExpenseNeverOverdraws(c: Context, f: Form)
    requires ValidContext(c) && ToLower(f.typeLabel) == Expense
    ensures var r := SaveTransaction(c, f);
      r.outcome.Saved? && !c.balanceFails ==> Balance(r.context.db.rows) >= 0.0
    ensures var r := SaveTransaction(c, f);
      r.outcome.Saved? && c.balanceFails ==> Balance(r.context.db.rows) >= Balance(c.db.rows)
  {
    if f.available && !Blank(f.amountText) && !Blank(f.description) && f.parsed.Some? {
      var amount := AmountInIdr(c, f.parsed.value).value;
      var c1 := if c.service.Some? then c.(service := Some(AmountInIdr(c, f.parsed.value).rates)) else c;
      CheckedExpenseFits(c1, Record(f, amount));
    }
  }
}

=== FILE: chart.dfy ===
/** `ChartActivity`: a pie of one month's expenses by category, with the
    total shown in the display currency, month navigation and a reload when
    the display currency changed while the screen was away. */
module ChartActivity {
  import opened Wrappers
  import opened Dates
  import opened Models
  import opened CurrencyService
  import DatabaseHelper

  /** What one load sees of the world: the network, the answer of the rate
      API, the network once more after a failed fetch, the clock, and the
      codes `java.util.Currency` knows. */
  datatype Env = Env(online: bool, api: ApiOutcome, onlineAfterFailure: bool, now: int, isoCodes: set<string>)

  predicate ValidEnv(e: Env) {
    e.api.Fetched? ==> PositiveRates(e.api.rates)
  }

  /** `updateCurrencyFormat`: rupiah when rupiah is asked for, when offline,
      and when `Currency.getInstance` rejects the code; otherwise the code
      is kept. */
  function CurrencyFormat(display: string, online: bool, isoCodes: set<string>): (d: string)
    ensures d == display || d == "IDR"
    ensures d != "IDR" <==> display != "IDR" && online && display in isoCodes
  {
    if display == "IDR" || !online then "IDR"
    else if display !in isoCodes then "IDR"
    else display
  }

  /** One wedge: its share of the shown total in percent and its category.
      The share is `None` when the total is zero, where the division gives
      no finite number. */
  datatype Slice = Slice(percent: Option<real>, category: string)

  /** What the screen shows: the empty message with a zero total, or the
      pie with its total and whether the refresh button is visible. */
  datatype View = EmptyState | Pie(total: real, slices: seq<Slice>, refresh: bool)

  /** The screen: the display currency in effect, the month, the service's
      table and the view. */
  datatype Chart = Chart(display: string, month: YearMonth, rates: Rates, view: View)

  predicate ValidChart(c: Chart) {
    QueryableMonth(c.month) && PositiveRates(c.rates)
  }

  /** An amount in rupiah as shown in `display` on table `t`. For IDR the
      amount is shown as it is. */
  function Shown(t: Rates, amount: real, display: string): (v: real)
    requires PositiveRates(t)
    ensures display == "IDR" ==> v == amount
    ensures v == 0.0 <==> amount == 0.0
  {
    ConvertLinear(t, amount, 0.0, "IDR", display);
    if display == "IDR" then amount else ConvertCurrency(t, amount, "IDR", display).value
  }

  function Percent(amount: real, total: real): (p: Option<real>)
    ensures p.None? <==> total == 0.0
  {
    if total == 0.0 then None else Some(amount / total * 100.0)
  }

  /** The wedges of `updateChartWithData`: each category's amount shown in
      `display`, as a percentage of `total`. Converting with a table that
      already holds rates leaves the table as it is, so every wedge uses
      `t`. */
  function Wedges(t: Rates, g: seq<DatabaseHelper.CategorySpending>, display: string, total: real): (w: seq<Slice>)
    requires PositiveRates(t)
    ensures |w| == |g|
    ensures forall i :: 0 <= i < |g| ==> w[i].category == g[i].category
    ensures forall i :: 0 <= i < |g| ==> w[i].percent == Percent(Shown(t, g[i].amount, display), total)
  {
    if |g| == 0 then []
    else
      var last := g[|g| - 1];
      Wedges(t, g[..|g| - 1], display, total) + [Slice(Percent(Shown(t, last.amount, display), total), last.category)]
  }

  /** The sum of the finite percentages. */
  function PercentSum(w: seq<Slice>): real {
    if |w| == 0 then 0.0
    else PercentSum(w[..|w| - 1]) + w[|w| - 1].percent.GetOr(0.0)
  }

  /** The loop of `updateChartData` that adds up the category amounts. */
  method TotalExpense(g: seq<DatabaseHelper.CategorySpending>) returns (total: real)
    ensures total == DatabaseHelper.Spent(g)
  {
    total := 0.0;
    var i := 0;
    while i < |g|
      invariant 0 <= i <= |g|
      invariant total == DatabaseHelper.Spent(g[..i])
    {
      assert g[..i + 1][..i] == g[..i];
      total := total + g[i].amount;
      i := i + 1;
    }
    assert g[..|g|] == g;
  }

  /** `updateChartData` for a non-empty list of groups. In rupiah nothing is
      converted; with rates at hand the total and each wedge are converted
      on them; otherwise the rates are fetched first, and the refresh button
      appears unless the fetch succeeded. */
  function UpdateChartData(c: Chart, g: seq<DatabaseHelper.CategorySpending>, e: Env): (r: Chart)
    requires ValidChart(c) && ValidEnv(e)
    ensures ValidChart(r) && r.month == c.month && r.view.Pie?
    ensures r.display == (if e.online then c.display else "IDR")
    ensures r.view.total == Shown(r.rates, DatabaseHelper.Spent(g), r.display)
    ensures r.view.slices == Wedges(r.rates, g, r.display, r.view.total)
    ensures r.display == "IDR" || HasRates(c.rates) ==> r.rates == c.rates && !r.view.refresh
    ensures r.display != "IDR" && !HasRates(c.rates) ==>
      var f := GetExchangeRates(c.rates, e.online, e.api, e.onlineAfterFailure, e.now);
      r.rates == f.rates && (r.view.refresh <==> !f.callback.OnSuccess?)
  {
    var display := if !e.online then "IDR" else c.display;
    var total := DatabaseHelper.Spent(g);
    if display == "IDR" || !e.online then
      c.(display := display, view := Pie(total, Wedges(c.rates, g, display, total), false))
    else if HasRates(c.rates) then
      var shown := Shown(c.rates, total, display);
      c.(display := display, view := Pie(shown, Wedges(c.rates, g, display, shown), false))
    else
      var f := GetExchangeRates(c.rates, e.online, e.api, e.onlineAfterFailure, e.now);
      var shown := Shown(f.rates, total, display);
      c.(display := display, rates := f.rates,
         view := Pie(shown, Wedges(f.rates, g, display, shown), !f.callback.OnSuccess?))
  }

  /** `loadChartData`: offline forces rupiah; without a database, or when
      the month holds no expense, the empty state; otherwise the pie. */
  function LoadChartData(c: Chart, store: Option<DatabaseHelper.Store>, e: Env): (r: Chart)
    requires ValidChart(c) && ValidEnv(e)
    ensures ValidChart(r) && r.month == c.month
    ensures !e.online ==> r.display == "IDR"
    ensures e.online ==> r.display == c.display
    ensures r.view.Pie? ==> (store.Some? &&
      var g := DatabaseHelper.GetCategorySpending(store.value, c.month);
      && r.view.total == Shown(r.rates, DatabaseHelper.Spent(g), r.display)
      && r.view.slices == Wedges(r.rates, g, r.display, r.view.total))
  {
    var c1 := if !e.online then c.(display := CurrencyFormat("IDR", e.online, e.isoCodes)) else c;
    match store
    case None => c1.(view := EmptyState)
    case Some(s) =>
      var g := DatabaseHelper.GetCategorySpending(s, c.month);
      if |g| == 0 then c1.(view := EmptyState)
      else UpdateChartData(c1, g, e)
  }

  /** The month's expense total in rupiah. */
  function MonthExpense(s: DatabaseHelper.Store, ym: YearMonth): real
    requires QueryableMonth(ym)
  {
    Sum(DatabaseHelper.MonthRows(s.rows, ym), OfType(Expense))
  }

  /** The empty state is shown exactly when there is no database or the
      month holds no expense. */
  lemma EmptyExactly(c: Chart, store: Option<DatabaseHelper.Store>, e: Env)
    requires ValidChart(c) && ValidEnv(e)
    ensures LoadChartData(c, store, e).view.EmptyState? <==>
      store.None? || forall t :: t in DatabaseHelper.MonthRows(store.value.rows, c.month) ==> t.kind != Expense
  {
    if store.Some? {
      DatabaseHelper.NoSpendingExactly(store.value, c.month);
    }
  }

  /** Showing a sum shows the sum of what is shown. */
  lemma ShownAdds(t: Rates, a: real, b: real, display: string)
    requires PositiveRates(t)
    ensures Shown(t, a + b, display) == Shown(t, a, display) + Shown(t, b, display)
  {
    ConvertLinear(t, a, b, "IDR", display);
  }

  lemma PercentAdds(x: real, y: real, total: real)
    requires total != 0.0
    ensures (x + y) / total * 100.0 == x / total * 100.0 + y / total * 100.0
  {
  }

  /** The wedges' percentages add up to the sum of their amounts, shown in
      `display`, over the total. */
  lemma {:induction false} WedgeSum(t: Rates, g: seq<DatabaseHelper.CategorySpending>, display: string, total: real)
    requires PositiveRates(t) && total != 0.0
    ensures PercentSum(Wedges(t, g, display, total)) == Shown(t, DatabaseHelper.Spent(g), display) / total * 100.0
  {
    if |g| > 0 {
      var n := |g| - 1;
      WedgeSum(t, g[..n], display, total);
      WedgeLast(t, g, display, total);
      ShownSpentLast(t, g, display);
      PercentAdds(Shown(t, DatabaseHelper.Spent(g[..n]), display), Shown(t, g[n].amount, display), total);
    } else {
      assert Shown(t, 0.0, display) == 0.0;
    }
  }

  /** The last wedge adds its shown amount over the total. */
  lemma WedgeLast(t: Rates, g: seq<DatabaseHelper.CategorySpending>, display: string, total: real)
    requires PositiveRates(t) && total != 0.0 && |g| > 0
    ensures PercentSum(Wedges(t, g, display, total))
         == PercentSum(Wedges(t, g[..|g| - 1], display, total)) + Shown(t, g[|g| - 1].amount, display) / total * 100.0
  {
    var w := Wedges(t, g, display, total);
    assert w[..|g| - 1] == Wedges(t, g[..|g| - 1], display, total);
  }

  /** The shown total of the groups is the shown total of all but the last
      plus the shown last amount. */
  lemma ShownSpentLast(t: Rates, g: seq<DatabaseHelper.CategorySpending>, display: string)
    requires PositiveRates(t) && |g| > 0
    ensures Shown(t, DatabaseHelper.Spent(g), display)
         == Shown(t, DatabaseHelper.Spent(g[..|g| - 1]), display) + Shown(t, g[|g| - 1].amount, display)
  {
    var n := |g| - 1;
    assert DatabaseHelper.Spent(g) == DatabaseHelper.Spent(g[..n]) + g[n].amount;
    ShownAdds(t, DatabaseHelper.Spent(g[..n]), g[n].amount, display);
  }

  /** A wedge's percentage does not depend on the display currency: it is
      the category's share of the month's expenses in rupiah. */
  lemma WedgeShare(t: Rates, amount: real, spent: real, display: string)
    requires PositiveRates(t) && spent != 0.0
    ensures Percent(Shown(t, amount, display), Shown(t, spent, display)) == Some(amount / spent * 100.0)
  {
    ConvertKeepsRatio(t, amount, spent, "IDR", display);
  }

  /** The percentages of the wedges, in order. */
  function Percents(w: seq<Slice>): seq<Option<real>> {
    seq(|w|, i requires 0 <= i < |w| => w[i].percent)
  }

  /** Each group's share of the groups' total, in percent. */
  function Shares(g: seq<DatabaseHelper.CategorySpending>): seq<Option<real>>
    requires DatabaseHelper.Spent(g) != 0.0
  {
    seq(|g|, i requires 0 <= i < |g| => Some(g[i].amount / DatabaseHelper.Spent(g) * 100.0))
  }

  /** Against a non-zero total shown in the same currency, the wedges are
      the groups' shares of the rupiah sum. */
  lemma WedgeShares(t: Rates, g: seq<DatabaseHelper.CategorySpending>, display: string, w: seq<Slice>)
    requires PositiveRates(t) && DatabaseHelper.Spent(g) != 0.0
    requires w == Wedges(t, g, display, Shown(t, DatabaseHelper.Spent(g), display))
    ensures Percents(w) == Shares(g)
  {
    var spent := DatabaseHelper.Spent(g);
    forall i | 0 <= i < |g|
      ensures Percents(w)[i] == Shares(g)[i]
    {
      WedgeShare(t, g[i].amount, spent, display);
    }
  }

  /** Against the shown sum of their own amounts, when it is not zero, the
      wedges make 100 percent. */
  lemma WedgesMakeHundred(t: Rates, g: seq<DatabaseHelper.CategorySpending>, display: string, w: seq<Slice>)
    requires PositiveRates(t) && DatabaseHelper.Spent(g) != 0.0
    requires w == Wedges(t, g, display, Shown(t, DatabaseHelper.Spent(g), display))
    ensures PercentSum(w) == 100.0
  {
    var total := Shown(t, DatabaseHelper.Spent(g), display);
    WedgeSum(t, g, display, total);
    SelfShare(total);
  }

  lemma SelfShare(x: real)
    requires x != 0.0
    ensures x / x * 100.0 == 100.0
  {
  }

  /** The pie has one wedge per expense category of the month, in order,
      and its total is the month's expenses shown in the display currency. */
  lemma PieTotal(c: Chart, s: DatabaseHelper.Store, e: Env)
    requires ValidChart(c) && ValidEnv(e)
    ensures var r := LoadChartData(c, Some(s), e);
      var g := DatabaseHelper.GetCategorySpending(s, c.month);
      r.view.Pie? ==>
        && r.view.total == Shown(r.rates, MonthExpense(s, c.month), r.display)
        && |r.view.slices| == |g|
        && (forall i :: 0 <= i < |g| ==> r.view.slices[i].category == g[i].category)
  {
  }

  /** When the month's expenses are not zero, each wedge of the pie is its
      category's share of the groups' total in percent, whatever the display
      currency, and the wedges make up 100 percent. */
  lemma PieIsWhole(c: Chart, s: DatabaseHelper.Store, e: Env)
    requires ValidChart(c) && ValidEnv(e)
    requires MonthExpense(s, c.month) != 0.0
    ensures var r := LoadChartData(c, Some(s), e);
      var g := DatabaseHelper.GetCategorySpending(s, c.month);
      r.view.Pie? ==>
        && Percents(r.view.slices) == Shares(g)
        && PercentSum(r.view.slices) == 100.0
  {
    var r := LoadChartData(c, Some(s), e);
    if r.view.Pie? {
      var g := DatabaseHelper.GetCategorySpending(s, c.month);
      WedgeShares(r.rates, g, r.display, r.view.slices);
      WedgesMakeHundred(r.rates, g, r.display, r.view.slices);
    }
  }

  /** Offline nothing is fetched or converted: the pie shows the month's
      expenses in rupiah on the table the screen already had. */
  lemma OfflineInRupiah(c: Chart, store: Option<DatabaseHelper.Store>, e: Env)
    requires ValidChart(c) && ValidEnv(e) && !e.online
    ensures var r := LoadChartData(c, store, e);
      && r.display == "IDR" && r.rates == c.rates
      && (r.view.Pie? ==> store.Some? && r.view.total == MonthExpense(store.value, c.month) && !r.view.refresh)
  {
  }

  /** The previous- and next-month buttons: move the month and reload. */
  function Previous(c: Chart, store: Option<DatabaseHelper.Store>, e: Env): (r: Chart)
    requires ValidChart(c) && ValidEnv(e) && QueryableMonth(PrevMonth(c.month))
    ensures ValidChart(r) && MonthIndex(r.month) == MonthIndex(c.month) - 1
  {
    LoadChartData(c.(month := PrevMonth(c.month)), store, e)
  }

  function Following(c: Chart, store: Option<DatabaseHelper.Store>, e: Env): (r: Chart)
    requires ValidChart(c) && ValidEnv(e) && QueryableMonth(NextMonth(c.month))
    ensures ValidChart(r) && MonthIndex(r.month) == MonthIndex(c.month) + 1
  {
    LoadChartData(c.(month := NextMonth(c.month)), store, e)
  }

  /** `onResume`: the stored display currency is read; only when it differs
      from the one in effect is the format updated and the chart reloaded. */
  function OnResume(c: Chart, stored: string, store: Option<DatabaseHelper.Store>, e: Env): (r: Chart)
    requires ValidChart(c) && ValidEnv(e)
    ensures ValidChart(r) && r.month == c.month
    ensures stored == c.display ==> r == c
    ensures stored != c.display ==> r.display == CurrencyFormat(stored, e.online, e.isoCodes)
  {
    if stored != c.display then
      LoadChartData(c.(display := CurrencyFormat(stored, e.online, e.isoCodes)), store, e)
    else c
  }

  /** Once a resume has put the stored currency into effect, resuming again
      with the same stored currency changes nothing; while the currency in
      effect is not the stored one (it was forced to rupiah), every resume
      reloads the chart. */
  lemma ResumeSettles(c: Chart, stored: string, store: Option<DatabaseHelper.Store>, e: Env)
    requires ValidChart(c) && ValidEnv(e)
    ensures var r := OnResume(c, stored, store, e);
      && (r.display == stored ==> OnResume(r, stored, store, e) == r)
      && (r.display != stored ==> OnResume(r, stored, store, e) == LoadChartData(r, store, e))
  {
  }
}

=== FILE: currency_activity.dfy ===
/** `CurrencyActivity`: the stand-alone converter. Two spinners choose the
    currencies among the service's labels, an amount is typed in, and the
    result is shown once rates are loaded. */
module CurrencyActivity {
  import opened Wrappers
  import opened Text
  import opened CurrencyService

  /** `extractCurrencyCode`: the first three characters of a label, or
      "USD" for a missing or shorter one. */
  function ExtractCode(full: Option<string>): (c: string)
    ensures |c| == 3
    ensures full.Some? && |full.value| >= 3 ==> c == full.value[..3]
    ensures full.None? || |full.value| < 3 ==> c == "USD"
  {
    if full.Some? && |full.value| >= 3 then full.value[..3] else "USD"
  }

  /** Every label the service offers yields the code it is listed under. */
  lemma ExtractCodeOfLabel(c: string)
    requires c in Countries
    ensures ExtractCode(Some(Label(c))) == c
    ensures ExtractCode(Some(Label(c))) in CurrencyNames()
  {
    CodesHaveThreeLetters(c);
    assert Label(c)[..3] == c;
  }

  /** The decimal pattern `formatResult` chooses. */
  datatype Precision =
    | Extended     // "#,##0.00######"
    | Whole        // "#,##0"
    | TwoDecimals  // "#,##0.00"

  /** Currencies shown without decimals. */
  const WholeCurrencies: set<string> := {"JPY", "KRW", "IDR", "VND"}

  /** The precision for an amount in a currency: small amounts first, then
      the currencies without minor units, then two decimals. */
  function PrecisionFor(amount: real, code: string): (p: Precision)
    ensures p == Extended <==> amount < 0.01
    ensures p == Whole <==> amount >= 0.01 && code in WholeCurrencies
    ensures p == TwoDecimals <==> amount >= 0.01 && code !in WholeCurrencies
  {
    if amount < 0.01 then Extended
    else if code == "JPY" || code == "KRW" || code == "IDR" || code == "VND" then Whole
    else TwoDecimals
  }

  /** `formatResult`: the number rendered with the chosen precision
      (`render` stands for `DecimalFormat`), a space, and the code. */
  function FormatResult(amount: real, code: string, render: (real, Precision) -> string): (text: string)
    ensures |text| >= |code| + 1
    ensures text[|text| - |code| - 1..] == " " + code
    ensures text[..|text| - |code| - 1] == render(amount, PrecisionFor(amount, code))
  {
    render(amount, PrecisionFor(amount, code)) + " " + code
  }

  /** A three-letter code (as every supported one is) can be read back off
      the end of a formatted result. */
  lemma CodeOfResult(amount: real, c: string, render: (real, Precision) -> string)
    requires |c| == 3
    ensures var text := FormatResult(amount, c, render);
      ExtractCode(Some(text[|text| - 3..])) == c
  {
    var text := FormatResult(amount, c, render);
    assert text[|text| - 3..] == (" " + c)[1..] == c;
  }

  /** What the result line says. */
  datatype Message =
    | Idle
    | Waiting
    | SelectCurrency
    | NoRateData
    | EnterAmount
    | InvalidNumber
    | Negative
    | NoRatesOffline
    | Converted(value: real, code: string, precision: Precision)

  /** Which part of the screen is visible. */
  datatype Pane = Content | Offline

  /** The converter: the spinners' labels and selected positions (-1 for
      none), the typed text and what `Double.parseDouble` makes of it once
      trimmed (`None` when it throws), the service's table, the
      `isRatesLoaded` flag, the visible pane, the refresh button and the
      result line. */
  datatype Screen = Screen(
    labels: seq<string>,
    from: int,
    to: int,
    amountText: string,
    parsed: Option<real>,
    rates: Rates,
    loaded: bool,
    pane: Pane,
    refresh: bool,
    result: Message)

  predicate ValidScreen(s: Screen) {
    PositiveRates(s.rates)
  }

  /** `getSelectedItem`: the label at the position, if there is one. */
  function Selected(labels: seq<string>, pos: int): (l: Option<string>)
    ensures l.Some? <==> 0 <= pos < |labels|
    ensures l.Some? ==> l.value == labels[pos]
  {
    if 0 <= pos < |labels| then Some(labels[pos]) else None
  }

  function FromCode(s: Screen): string {
    ExtractCode(Selected(s.labels, s.from))
  }

  function ToCode(s: Screen): string {
    ExtractCode(Selected(s.labels, s.to))
  }

  /** Both spinners have a selection. */
  predicate BothSelected(s: Screen) {
    Selected(s.labels, s.from).Some? && Selected(s.labels, s.to).Some?
  }

  /** The result line `convertCurrency` with `validateComponents` writes:
      both selections, then rates, then a non-blank amount, then a number,
      then a non-negative one; only then is the amount converted. The table
      already holds rates at that point, so the conversion leaves it as it
      is. */
  function ResultLine(s: Screen): (m: Message)
    requires ValidScreen(s)
    ensures m.Converted? <==>
      BothSelected(s) && HasRates(s.rates) && !Blank(s.amountText) && s.parsed.Some? && s.parsed.value >= 0.0
    ensures m.Converted? ==>
      var c := ConvertCurrency(s.rates, s.parsed.value, FromCode(s), ToCode(s));
      && c.rates == s.rates
      && m == Converted(c.value, ToCode(s), PrecisionFor(c.value, ToCode(s)))
  {
    if !BothSelected(s) then SelectCurrency
    else if !HasRates(s.rates) then NoRateData
    else if Trim(s.amountText) == [] then EnterAmount
    else match s.parsed
      case None => InvalidNumber
      case Some(amount) =>
        if amount < 0.0 then Negative
        else
          var c := ConvertCurrency(s.rates, amount, FromCode(s), ToCode(s));
          Converted(c.value, ToCode(s), PrecisionFor(c.value, ToCode(s)))
  }

  /** `convertCurrency`: only the result line changes. */
  function Convert(s: Screen): (r: Screen)
    requires ValidScreen(s)
    ensures r == s.(result := r.result)
    ensures r.result.Converted? <==>
      BothSelected(s) && HasRates(s.rates) && !Blank(s.amountText) && s.parsed.Some? && s.parsed.value >= 0.0
    ensures r.result.Converted? ==>
      var c := ConvertCurrency(s.rates, s.parsed.value, FromCode(s), ToCode(s));
      && c.rates == s.rates
      && r.result == Converted(c.value, ToCode(s), PrecisionFor(c.value, ToCode(s)))
    ensures r.result == ResultLine(r)
  {
    ResultLineIgnoresResult(s, ResultLine(s));
    s.(result := ResultLine(s))
  }

  /** The result line depends on the screen but not on what it showed
      before. */
  lemma ResultLineIgnoresResult(s: Screen, m: Message)
    requires ValidScreen(s)
    ensures ResultLine(s.(result := m)) == ResultLine(s)
  {
  }

  /** The refusals come in a fixed order: a missing selection first, then
      missing rates, then a blank amount, then text that is no number, then
      a negative number. */
  lemma ConvertChecksInOrder(s: Screen)
    requires ValidScreen(s)
    ensures var m := Convert(s).result;
      && (m == SelectCurrency <==> !BothSelected(s))
      && (m == NoRateData <==> BothSelected(s) && !HasRates(s.rates))
      && (m == EnterAmount <==> BothSelected(s) && HasRates(s.rates) && Blank(s.amountText))
      && (m == InvalidNumber <==> BothSelected(s) && HasRates(s.rates) && !Blank(s.amountText) && s.parsed.None?)
      && (m == Negative <==>
            BothSelected(s) && HasRates(s.rates) && !Blank(s.amountText) && s.parsed.Some? && s.parsed.value < 0.0)
  {
  }

  /** A converted amount is never negative. */
  lemma ConvertedNotNegative(s: Screen)
    requires ValidScreen(s)
    ensures Convert(s).result.Converted? ==> Convert(s).result.value >= 0.0
  {
    if Convert(s).result.Converted? {
      ConvertLinear(s.rates, s.parsed.value, 0.0, FromCode(s), ToCode(s));
    }
  }

  /** Typing in the amount field: the text changes, and the result is
      recomputed once rates are loaded. */
  function EditAmount(s: Screen, text: string, parsed: Option<real>): (r: Screen)
    requires ValidScreen(s)
    ensures ValidScreen(r) && r.amountText == text && r.parsed == parsed
    ensures s.loaded ==> r == Convert(s.(amountText := text, parsed := parsed))
    ensures !s.loaded ==> r == s.(amountText := text, parsed := parsed)
  {
    var s1 := s.(amountText := text, parsed := parsed);
    if s.loaded then Convert(s1) else s1
  }

  /** Choosing a currency in either spinner. */
  function Select(s: Screen, from: int, to: int): (r: Screen)
    requires ValidScreen(s)
    ensures ValidScreen(r) && r.from == from && r.to == to
    ensures s.loaded ==> r == Convert(s.(from := from, to := to))
    ensures !s.loaded ==> r == s.(from := from, to := to)
  {
    var s1 := s.(from := from, to := to);
    if s.loaded then Convert(s1) else s1
  }

  /** `swapCurrencies`: the two positions trade places, and the result is
      recomputed when rates are loaded and an amount is typed. */
  function Swap(s: Screen): (r: Screen)
    requires ValidScreen(s)
    ensures ValidScreen(r) && r.from == s.to && r.to == s.from && r.labels == s.labels
    ensures r.amountText == s.amountText && r.parsed == s.parsed && r.rates == s.rates
    ensures r.loaded == s.loaded && r.pane == s.pane && r.refresh == s.refresh
    ensures s.loaded && !Blank(s.amountText) ==> r.result == ResultLine(r)
    ensures !(s.loaded && !Blank(s.amountText)) ==> r.result == s.result
  {
    var s1 := s.(from := s.to, to := s.from);
    if s.loaded && Trim(s.amountText) != [] then Convert(s1) else s1
  }

  /** Swapping twice restores the pair of currencies, and the result is the
      one the original pair gives. */
  lemma SwapTwice(s: Screen)
    requires ValidScreen(s)
    ensures Swap(Swap(s)).from == s.from && Swap(Swap(s)).to == s.to
    ensures s.loaded && !Blank(s.amountText) ==> Swap(Swap(s)) == Convert(s)
    ensures !(s.loaded && !Blank(s.amountText)) ==> Swap(Swap(s)) == s
  {
  }

  /** Swapping and entering the converted value converts it back to the
      amount first typed. */
  lemma SwapConvertsBack(s: Screen, text: string)
    requires ValidScreen(s) && Convert(s).result.Converted? && !Blank(text)
    ensures var back := Convert(Swap(s).(amountText := text, parsed := Some(Convert(s).result.value)));
      back.result.Converted? && back.result.value == s.parsed.value && back.result.code == FromCode(s)
  {
    ConvertedNotNegative(s);
    ConvertRoundTrip(s.rates, s.parsed.value, FromCode(s), ToCode(s));
  }

  /** `showNoNetwork`: the offline pane; with rates in the table they are
      used, otherwise the converter waits for rates. */
  function ShowNoNetwork(s: Screen): (r: Screen)
    requires ValidScreen(s)
    ensures ValidScreen(r) && r.pane == Offline && r.rates == s.rates
    ensures r.labels == s.labels && r.from == s.from && r.to == s.to
    ensures r.loaded == HasRates(s.rates)
    ensures !HasRates(s.rates) ==> r.result == NoRatesOffline
    ensures HasRates(s.rates) ==> r.result == ResultLine(r)
    ensures r == s.(pane := Offline, loaded := HasRates(s.rates), result := r.result)
  {
    if HasRates(s.rates) then Convert(s.(pane := Offline, loaded := true))
    else s.(pane := Offline, loaded := false, result := NoRatesOffline)
  }

  /** The screen while a load is under way, and once its callback ran. */
  datatype Load = Load(pending: Screen, settled: Screen)

  /** The screen as `loadExchangeRates` leaves it before the callback. */
  function BeginLoad(s: Screen): (r: Screen)
    ensures !r.loaded && r.result == Waiting && !r.refresh
    ensures r.rates == s.rates && r.labels == s.labels && r.from == s.from && r.to == s.to
    ensures r == s.(loaded := r.loaded, refresh := r.refresh, result := r.result)
  {
    s.(loaded := false, refresh := false, result := Waiting)
  }

  /** The callbacks of `loadExchangeRates`: any of them marks rates as
      loaded, shows the refresh button and converts; a network error also
      switches to the offline pane. */
  function Settle(s: Screen, f: Fetch): (r: Screen)
    requires ValidScreen(s) && PositiveRates(f.rates) && HasRates(f.rates)
    ensures ValidScreen(r) && r.loaded && r.rates == f.rates
    ensures r.labels == s.labels && r.from == s.from && r.to == s.to
    ensures r.pane == (if f.callback.OnNetworkError? then Offline else s.pane)
    ensures r.refresh && r.result == ResultLine(r)
    ensures r.amountText == s.amountText && r.parsed == s.parsed
  {
    var s1 := Convert(s.(rates := f.rates, loaded := true, refresh := true));
    match f.callback
    case OnNetworkError => ShowNoNetwork(s1)
    case _ => s1
  }

  /** `loadExchangeRates` (and the refresh button): offline, the offline
      pane straight away; otherwise a fetch, during which rates count as
      not loaded, and after which they are loaded whatever the callback. */
  function LoadExchangeRates(s: Screen, online: bool, api: ApiOutcome, onlineAfterFailure: bool, now: int): (l: Load)
    requires ValidScreen(s)
    requires api.Fetched? ==> PositiveRates(api.rates)
    ensures ValidScreen(l.settled)
    ensures l.settled.labels == s.labels && l.settled.from == s.from && l.settled.to == s.to
    ensures !online ==> l.pending == l.settled == ShowNoNetwork(s)
    ensures online ==> !l.pending.loaded && l.settled.loaded
    ensures online ==> l.settled.rates == GetExchangeRates(s.rates, online, api, onlineAfterFailure, now).rates
    ensures l.settled.amountText == s.amountText && l.settled.parsed == s.parsed
    ensures online ==> l.settled.refresh && l.settled.result == ResultLine(l.settled)
  {
    if !online then
      var r := ShowNoNetwork(s);
      Load(r, r)
    else
      var pending := BeginLoad(s);
      var f := GetExchangeRates(s.rates, online, api, onlineAfterFailure, now);
      Load(pending, Settle(pending, f))
  }

  /** The retry button of the offline pane: online, the content pane comes
      back and rates are loaded; offline only a message appears and the
      screen stays as it is. */
  function Retry(s: Screen, online: bool, api: ApiOutcome, onlineAfterFailure: bool, now: int): (l: Load)
    requires ValidScreen(s)
    requires api.Fetched? ==> PositiveRates(api.rates)
    ensures ValidScreen(l.settled)
    ensures !online ==> l.pending == l.settled == s
    ensures online ==>
      var f := GetExchangeRates(s.rates, online, api, onlineAfterFailure, now);
      && !l.pending.loaded && l.pending.pane == Content
      && l.settled.loaded && l.settled.rates == f.rates
      && l.settled.pane == (if f.callback.OnNetworkError? then Offline else Content)
    ensures l.settled.amountText == s.amountText && l.settled.parsed == s.parsed
    ensures online ==> l.settled.refresh && l.settled.result == ResultLine(l.settled)
  {
    if online then LoadExchangeRates(s.(pane := Content), online, api, onlineAfterFailure, now)
    else Load(s, s)
  }

  /** After any load the flag tells whether the table holds rates. */
  lemma LoadedMeansRates(s: Screen, online: bool, api: ApiOutcome, onlineAfterFailure: bool, now: int)
    requires ValidScreen(s)
    requires api.Fetched? ==> PositiveRates(api.rates)
    ensures var l := LoadExchangeRates(s, online, api, onlineAfterFailure, now);
      l.settled.loaded <==> HasRates(l.settled.rates)
  {
  }

  /** `setSpinnerSelection`: the position of the label when the adapter
      has it; otherwise the spinner keeps its first item (none when empty). */
  function InitialPosition(labels: seq<string>, wanted: string): (p: int)
    ensures -1 <= p < |labels|
    ensures wanted in labels ==> p >= 0 && labels[p] == wanted
    ensures p == -1 <==> |labels| == 0
  {
    var i := IndexIn(labels, wanted);
    if i >= 0 then i else if |labels| > 0 then 0 else -1
  }

  /** `onCreate`: the service starts from the cache, the spinners are set
      to rupiah and US dollar, and rates are loaded (or the offline pane
      shown). */
  function OnCreate(labels: seq<string>, prefs: Prefs, online: bool, api: ApiOutcome,
                    onlineAfterFailure: bool, now: int): (l: Load)
    requires prefs.cachedRates.Some? ==> PositiveRates(prefs.cachedRates.value)
    requires api.Fetched? ==> PositiveRates(api.rates)
    ensures ValidScreen(l.settled) && l.settled.labels == labels
    ensures l.settled.from == InitialPosition(labels, Label("IDR"))
    ensures l.settled.to == InitialPosition(labels, Label("USD"))
    ensures l.pending.rates == LoadCachedRates(prefs, now)
    ensures online ==> l.settled.loaded
    ensures online ==>
      l.settled.rates == GetExchangeRates(LoadCachedRates(prefs, now), online, api, onlineAfterFailure, now).rates
    ensures !online ==> l.settled.rates == LoadCachedRates(prefs, now) && l.settled.pane == Offline
  {
    var rates := LoadCachedRates(prefs, now);
    var s := Screen(labels, InitialPosition(labels, Label("IDR")), InitialPosition(labels, Label("USD")),
                    "", None, rates, false, Content, false, Idle);
    LoadExchangeRates(s, online, api, onlineAfterFailure, now)
  }

  /** With every offered label in the spinners, the converter starts out
      from rupiah to US dollar. */
  lemma StartsFromRupiahToDollar(labels: seq<string>, prefs: Prefs, online: bool, api: ApiOutcome,
                                 onlineAfterFailure: bool, now: int)
    requires prefs.cachedRates.Some? ==> PositiveRates(prefs.cachedRates.value)
    requires api.Fetched? ==> PositiveRates(api.rates)
    requires forall l :: l in AvailableCurrencies() ==> l in labels
    ensures var l := OnCreate(labels, prefs, online, api, onlineAfterFailure, now);
      FromCode(l.settled) == "IDR" && ToCode(l.settled) == "USD"
  {
    LabelOffered("IDR");
    LabelOffered("USD");
    ExtractCodeOfLabel("IDR");
    ExtractCodeOfLabel("USD");
  }

  lemma LabelOffered(c: string)
    requires c in Countries
    ensures Label(c) in AvailableCurrencies()
  {
    assert CurrencyNames()[c] == Label(c);
  }
}

=== FILE: currency_service.dfy ===
/** The exchange-rate service: a table from currency code to the number of
    units of that currency per euro, a one-hour cache of the last fetched
    table, a hard-coded fallback table, and conversion through the euro.
    The network state, the API outcome and the clock are inputs. */
module CurrencyService {
  import opened Wrappers

  /** Units of each currency per euro (the API is queried with base EUR). */
  type Rates = map<string, real>

  const Pivot: string := "EUR"

  /** Cached rates stay usable for one hour, in milliseconds. */
  const CacheDuration: int := 3600000

  predicate PositiveRates(r: Rates) {
    forall c :: c in r ==> r[c] > 0.0
  }

  /** `hasRates`: the table is not empty. */
  predicate HasRates(r: Rates) {
    r != map[]
  }

  /** The fallback table installed when nothing better is known. */
  function DefaultRates(): (d: Rates)
    ensures HasRates(d) && PositiveRates(d)
    ensures Pivot in d && d[Pivot] == 1.0
  {
    var d := map[
      "USD" := 1.08,
      "EUR" := 1.0,
      "GBP" := 0.86,
      "JPY" := 162.0,
      "IDR" := 17000.0,
      "AUD" := 1.63,
      "CAD" := 1.47,
      "CHF" := 0.97,
      "CNY" := 7.75,
      "SGD" := 1.45];
    assert Pivot in d;
    d
  }

  /** The country name shown after each supported currency code. */
  const Countries: map<string, string> := map[
    "USD" := "Amerika Serikat",
    "EUR" := "Eropa",
    "GBP" := "Inggris",
    "JPY" := "Jepang",
    "AUD" := "Australia",
    "CAD" := "Kanada",
    "CHF" := "Swiss",
    "CNY" := "China",
    "SGD" := "Singapura",
    "KRW" := "Korea Selatan",
    "THB" := "Thailand",
    "MYR" := "Malaysia",
    "PHP" := "Filipina",
    "VND" := "Vietnam",
    "IDR" := "Indonesia",
    "INR" := "India",
    "HKD" := "Hong Kong",
    "NZD" := "Selandia Baru",
    "SEK" := "Swedia",
    "NOK" := "Norwegia"]

  /** The display label of a supported currency: "USD - Amerika Serikat". */
  function Label(code: string): string
    requires code in Countries
  {
    code + " - " + Countries[code]
  }

  /** `currencyNames`: the label of every supported currency, by code. */
  function CurrencyNames(): map<string, string> {
    map c | c in Countries :: Label(c)
  }

  /** `getAvailableCurrencies`: every label starts with its own code
      followed by " - ", and every supported currency has its label. */
  function AvailableCurrencies(): set<string> {
    CurrencyNames().Values
  }

  lemma CodesHaveThreeLetters(c: string)
    requires c in Countries
    ensures |c| == 3
    ensures forall i :: 0 <= i < 3 ==> 'A' <= c[i] <= 'Z'
  {
  }

  /** Every label `getAvailableCurrencies` offers starts with its own code
      followed by " - ", and every supported currency is offered. */
  lemma LabelsNameTheirCode()
    ensures forall l :: l in AvailableCurrencies() ==>
      |l| >= 6 && l[3..6] == " - " && l[..3] in CurrencyNames() && CurrencyNames()[l[..3]] == l
    ensures forall c :: c in CurrencyNames() ==> CurrencyNames()[c] in AvailableCurrencies()
  {
    var names := CurrencyNames();
    forall l | l in names.Values
      ensures |l| >= 6 && l[3..6] == " - " && l[..3] in names && names[l[..3]] == l
    {
      var c :| c in names && names[c] == l;
      CodesHaveThreeLetters(c);
      assert l == c + " - " + Countries[c];
      assert l[..3] == c;
    }
  }

  /** The outcome of `convertCurrency`: the table afterwards (an empty table
      gets the defaults installed) and the converted amount. */
  datatype Conversion = Conversion(rates: Rates, value: real)

  /** The table `convertCurrency` works on: an empty table first gets the
      defaults installed. */
  function ConversionTable(rates: Rates): (t: Rates)
    requires PositiveRates(rates)
    ensures HasRates(t) && PositiveRates(t)
    ensures HasRates(rates) ==> t == rates
    ensures !HasRates(rates) ==> t == DefaultRates()
  {
    if rates == map[] then rates + DefaultRates() else rates
  }

  /** The converted amount on table `t`: through the euro,
      `amount / t[from] * t[to]`, or the amount itself when the codes are
      equal or a rate is missing. */
  function ValueOn(t: Rates, amount: real, from: string, to: string): real
    requires PositiveRates(t)
  {
    if from == to || from !in t || to !in t then amount
    else amount / t[from] * t[to]
  }

  /** `convertCurrency(amount, from, to)`. Equal codes return the amount
      before the table is even looked at; otherwise the table gets the
      defaults if it was empty, and a missing rate gives the amount back. */
  function ConvertCurrency(rates: Rates, amount: real, from: string, to: string): (c: Conversion)
    requires PositiveRates(rates)
    ensures PositiveRates(c.rates)
    ensures from == to ==> c == Conversion(rates, amount)
    ensures from != to ==> c.rates == ConversionTable(rates) && HasRates(c.rates)
    ensures from != to && (from !in c.rates || to !in c.rates) ==> c.value == amount
  {
    if from == to then Conversion(rates, amount)
    else
      var table := ConversionTable(rates);
      Conversion(table, ValueOn(table, amount, from, to))
  }

  /** With both rates known, conversion preserves the euro value of the
      amount. */
  lemma ConvertPreservesEuroValue(rates: Rates, amount: real, from: string, to: string)
    requires PositiveRates(rates)
    ensures var c := ConvertCurrency(rates, amount, from, to);
      from != to && from in c.rates && to in c.rates ==>
        c.value / c.rates[to] == amount / c.rates[from]
  {
    var c := ConvertCurrency(rates, amount, from, to);
    ConvertOnTable(rates, amount, from, to);
    if from != to && from in c.rates && to in c.rates {
      ValueOnEuro(c.rates, amount, from, to);
    }
  }

  lemma ValueOnEuro(t: Rates, amount: real, from: string, to: string)
    requires PositiveRates(t) && from != to && from in t && to in t
    ensures ValueOn(t, amount, from, to) / t[to] == amount / t[from]
  {
    EuroArith(amount, t[from], t[to]);
  }

  lemma EuroArith(a: real, rf: real, rt: real)
    requires rf > 0.0 && rt > 0.0
    ensures a / rf * rt / rt == a / rf
  {
  }

  lemma RoundTripArith(a: real, rf: real, rt: real)
    requires rf > 0.0 && rt > 0.0
    ensures a / rf * rt / rt * rf == a
  {
  }

  /** On a fixed table, conversion is linear, only zero converts to zero,
      and the sign of an amount survives conversion. */
  lemma ValueOnLinear(t: Rates, a: real, b: real, from: string, to: string)
    requires PositiveRates(t)
    ensures ValueOn(t, a + b, from, to) == ValueOn(t, a, from, to) + ValueOn(t, b, from, to)
    ensures ValueOn(t, a - b, from, to) == ValueOn(t, a, from, to) - ValueOn(t, b, from, to)
    ensures ValueOn(t, a, from, to) == 0.0 <==> a == 0.0
    ensures ValueOn(t, a, from, to) < 0.0 <==> a < 0.0
  {
    ValueOnAdds(t, a, b, from, to);
    ValueOnAdds(t, a - b, b, from, to);
    assert a - b + b == a;
    ValueOnSign(t, a, from, to);
  }

  lemma ValueOnAdds(t: Rates, a: real, b: real, from: string, to: string)
    requires PositiveRates(t)
    ensures ValueOn(t, a + b, from, to) == ValueOn(t, a, from, to) + ValueOn(t, b, from, to)
  {
    if from != to && from in t && to in t {
      var k := t[to] / t[from];
      ScaleArith(a, t[from], t[to]);
      ScaleArith(b, t[from], t[to]);
      ScaleArith(a + b, t[from], t[to]);
      assert (a + b) * k == a * k + b * k;
    }
  }

  lemma ValueOnSign(t: Rates, a: real, from: string, to: string)
    requires PositiveRates(t)
    ensures ValueOn(t, a, from, to) == 0.0 <==> a == 0.0
    ensures ValueOn(t, a, from, to) < 0.0 <==> a < 0.0
  {
    if from != to && from in t && to in t {
      ScaleArith(a, t[from], t[to]);
      ScaledSign(a, t[to] / t[from]);
    }
  }

  /** Converting through the euro scales by the factor `rt / rf`. */
  lemma ScaleArith(a: real, rf: real, rt: real)
    requires rf > 0.0 && rt > 0.0
    ensures rt / rf > 0.0
    ensures a / rf * rt == a * (rt / rf)
  {
  }

  /** Scaling by a positive factor keeps zero and sign. */
  lemma ScaledSign(a: real, k: real)
    requires k > 0.0
    ensures a * k == 0.0 <==> a == 0.0
    ensures a * k < 0.0 <==> a < 0.0
  {
    if a < 0.0 {
      assert a * k < 0.0;
    } else if a > 0.0 {
      assert a * k > 0.0;
    }
  }

  /** The table a conversion leaves behind does not depend on the amount,
      and the converted value is `ValueOn` that table. */
  lemma ConvertOnTable(rates: Rates, amount: real, from: string, to: string)
    requires PositiveRates(rates)
    ensures var c := ConvertCurrency(rates, amount, from, to);
      c.rates == ConvertCurrency(rates, 0.0, from, to).rates
      && c.value == ValueOn(c.rates, amount, from, to)
  {
  }

  /** Conversion is linear: converting a sum or a difference gives the sum
      or difference of the conversions; only zero converts to zero and
      negative amounts stay negative. */
  lemma ConvertLinear(rates: Rates, a: real, b: real, from: string, to: string)
    requires PositiveRates(rates)
    ensures ConvertCurrency(rates, a + b, from, to).value
         == ConvertCurrency(rates, a, from, to).value + ConvertCurrency(rates, b, from, to).value
    ensures ConvertCurrency(rates, a - b, from, to).value
         == ConvertCurrency(rates, a, from, to).value - ConvertCurrency(rates, b, from, to).value
    ensures ConvertCurrency(rates, a, from, to).value == 0.0 <==> a == 0.0
    ensures ConvertCurrency(rates, a, from, to).value < 0.0 <==> a < 0.0
  {
    ConvertOnTable(rates, a + b, from, to);
    ConvertOnTable(rates, a - b, from, to);
    ConvertOnTable(rates, a, from, to);
    ConvertOnTable(rates, b, from, to);
    ValueOnLinear(ConvertCurrency(rates, 0.0, from, to).rates, a, b, from, to);
  }

  /** Conversion scales every amount by one positive factor, so the ratio
      of two amounts is the same in any currency. */
  lemma ConvertKeepsRatio(rates: Rates, a: real, b: real, from: string, to: string)
    requires PositiveRates(rates) && b != 0.0
    ensures ConvertCurrency(rates, b, from, to).value != 0.0
    ensures ConvertCurrency(rates, a, from, to).value / ConvertCurrency(rates, b, from, to).value == a / b
  {
    ConvertOnTable(rates, a, from, to);
    ConvertOnTable(rates, b, from, to);
    ValueOnRatio(ConvertCurrency(rates, 0.0, from, to).rates, a, b, from, to);
  }

  /** On a fixed table, conversion keeps the ratio of two amounts. */
  lemma ValueOnRatio(t: Rates, a: real, b: real, from: string, to: string)
    requires PositiveRates(t) && b != 0.0
    ensures ValueOn(t, b, from, to) != 0.0
    ensures ValueOn(t, a, from, to) / ValueOn(t, b, from, to) == a / b
  {
    if from != to && from in t && to in t {
      RatioArith(a, b, t[from], t[to]);
    }
  }

  lemma RatioArith(a: real, b: real, rf: real, rt: real)
    requires rf > 0.0 && rt > 0.0 && b != 0.0
    ensures b / rf * rt != 0.0
    ensures (a / rf * rt) / (b / rf * rt) == a / b
  {
    var k := rt / rf;
    assert k > 0.0;
    assert a / rf * rt == a * k && b / rf * rt == b * k;
    assert (a * k) / (b * k) == a / b;
  }

  /** Converting from -> to and back on the table the first conversion left
      returns the original amount. */
  lemma ConvertRoundTrip(rates: Rates, amount: real, from: string, to: string)
    requires PositiveRates(rates)
    ensures var there := ConvertCurrency(rates, amount, from, to);
      var back := ConvertCurrency(there.rates, there.value, to, from);
      back.value == amount && back.rates == there.rates
  {
    if from != to {
      var there := ConvertCurrency(rates, amount, from, to);
      ConvertOnTable(rates, amount, from, to);
      ValueOnRoundTrip(there.rates, amount, from, to);
    }
  }

  /** On a fixed table, converting there and back gives the amount. */
  lemma ValueOnRoundTrip(t: Rates, amount: real, from: string, to: string)
    requires PositiveRates(t)
    ensures ValueOn(t, ValueOn(t, amount, from, to), to, from) == amount
  {
    if from != to && from in t && to in t {
      RoundTripArith(amount, t[from], t[to]);
    }
  }

  /** Converting with an empty table installs the fallback table, after
      which rates are available and the euro is at 1. */
  lemma ConvertInstallsDefaults(amount: real, from: string, to: string)
    requires from != to
    ensures var c := ConvertCurrency(map[], amount, from, to);
      HasRates(c.rates) && Pivot in c.rates && c.rates[Pivot] == 1.0
  {
  }

  /** The callbacks of `CurrencyCallback`. */
  datatype Callback = OnSuccess(rates: Rates) | OnError(message: string) | OnNetworkError

  /** What the rate API call did: delivered a body with rates, or failed
      (an unsuccessful response, an empty body, or a transport error). */
  datatype ApiOutcome = Fetched(rates: Rates) | Failed

  /** The cache record `cacheRates` writes: the table and the time. */
  datatype CacheEntry = CacheEntry(rates: Rates, savedAt: int)

  /** The state after a rate request: the table, the callback fired and the
      cache record written, if any. */
  datatype Fetch = Fetch(rates: Rates, callback: Callback, cached: Option<CacheEntry>)

  /** `handleApiFailure`: keep a non-empty table; otherwise install the
      defaults, reporting a network error when the network is (now) down. */
  function HandleApiFailure(rates: Rates, online: bool): (f: Fetch)
    requires PositiveRates(rates)
    ensures HasRates(f.rates) && PositiveRates(f.rates)
    ensures f.cached == None
    ensures HasRates(rates) ==> f.rates == rates && f.callback == OnSuccess(rates)
    ensures !HasRates(rates) ==> f.rates == DefaultRates()
    ensures !HasRates(rates) && !online ==> f.callback == OnNetworkError
    ensures !HasRates(rates) && online ==> f.callback == OnSuccess(DefaultRates())
  {
    if HasRates(rates) then Fetch(rates, OnSuccess(rates), None)
    else if !online then Fetch(rates + DefaultRates(), OnNetworkError, None)
    else Fetch(rates + DefaultRates(), OnSuccess(DefaultRates()), None)
  }

  /** `getExchangeRates`. `online` is the network state when called,
      `onlineAfterFailure` the state `handleApiFailure` sees, and `now` the
      clock when a fetched table is cached. */
  function GetExchangeRates(rates: Rates, online: bool, api: ApiOutcome, onlineAfterFailure: bool, now: int): (f: Fetch)
    requires PositiveRates(rates)
    requires api.Fetched? ==> PositiveRates(api.rates)
    ensures HasRates(f.rates) && PositiveRates(f.rates)
    ensures !f.callback.OnError?
    ensures f.callback.OnSuccess? ==> f.callback.rates == f.rates
    ensures f.callback.OnNetworkError? <==>
      !HasRates(rates) && (!online || !onlineAfterFailure) && !(online && api.Fetched?)
    ensures online && api.Fetched? ==>
      f.rates == api.rates[Pivot := 1.0] && f.cached == Some(CacheEntry(f.rates, now))
    ensures !(online && api.Fetched?) ==> f.cached == None
    ensures HasRates(rates) && !(online && api.Fetched?) ==> f.rates == rates
    ensures !HasRates(rates) && !(online && api.Fetched?) ==> f.rates == DefaultRates()
  {
    if !online then
      if HasRates(rates) then Fetch(rates, OnSuccess(rates), None)
      else Fetch(rates + DefaultRates(), OnNetworkError, None)
    else
      match api
      case Fetched(r) =>
        var latest := r[Pivot := 1.0];
        assert Pivot in latest;
        Fetch(latest, OnSuccess(latest), Some(CacheEntry(latest, now)))
      case Failed => HandleApiFailure(rates, onlineAfterFailure)
  }

  /** What the preferences hold: the last update time and the cached table
      (`None` when the key is missing, empty, or parses to null). */
  datatype Prefs = Prefs(lastUpdate: Option<int>, cachedRates: Option<Rates>)

  /** `cacheRates`: the preferences after a fetched table is saved. */
  function CacheRates(entry: CacheEntry): (p: Prefs)
    ensures p.lastUpdate == Some(entry.savedAt) && p.cachedRates == Some(entry.rates)
  {
    Prefs(Some(entry.savedAt), Some(entry.rates))
  }

  /** The freshness test: strictly less than an hour since the last update
      (a missing time counts as 0). */
  predicate Fresh(prefs: Prefs, now: int) {
    now - prefs.lastUpdate.GetOr(0) < CacheDuration
  }

  /** The service constructor: an empty table, filled by `loadCachedRates`
      from a fresh cache. */
  function LoadCachedRates(prefs: Prefs, now: int): (r: Rates)
    ensures Fresh(prefs, now) && prefs.cachedRates.Some? ==> r == prefs.cachedRates.value
    ensures !Fresh(prefs, now) || prefs.cachedRates.None? ==> r == map[]
  {
    var empty: Rates := map[];
    if now - prefs.lastUpdate.GetOr(0) < CacheDuration then
      match prefs.cachedRates
      case Some(cached) => cached
      case None => empty
    else empty
  }

  /** A table fetched at time `t` is what a service started at `t'` sees
      exactly when `t' - t` is under an hour; afterwards it starts empty. */
  lemma CacheRoundTrip(rates: Rates, api: ApiOutcome, t: int, later: int)
    requires PositiveRates(rates) && api.Fetched? && PositiveRates(api.rates)
    ensures var f := GetExchangeRates(rates, true, api, true, t);
      && f.cached.Some?
      && (later - t < CacheDuration ==> LoadCachedRates(CacheRates(f.cached.value), later) == f.rates)
      && (later - t >= CacheDuration ==> LoadCachedRates(CacheRates(f.cached.value), later) == map[])
  {
  }
}

=== FILE: database.dfy ===
/** `DatabaseHelper`: the `transactions` table of the local SQLite store
    and the queries the screens run against it. The table is the sequence
    of its rows in insertion order together with the AUTOINCREMENT counter
    (the largest id ever handed out). */
module DatabaseHelper {
  import opened Wrappers
  import opened Dates
  import opened Models
  import opened Text

  datatype Store = Store(rows: seq<Transaction>, lastId: nat)

  /** What the schema guarantees of every row: a positive id no larger than
      the counter and unique in the table, and a type the CHECK constraint
      admits. */
  predicate Valid(s: Store) {
    && (forall i :: 0 <= i < |s.rows| ==> 0 < s.rows[i].id <= s.lastId)
    && (forall i :: 0 <= i < |s.rows| ==> ValidType(s.rows[i].kind))
    && (forall i, j :: 0 <= i < j < |s.rows| ==> s.rows[i].id != s.rows[j].id)
  }

  /** `onCreate` (and `onUpgrade`, which drops and recreates the table). */
  const Empty: Store := Store([], 0)

  predicate HasId(s: Store, id: int) {
    exists i :: 0 <= i < |s.rows| && s.rows[i].id == id
  }

  /** The position of the row with the given id. */
  function FindId(rows: seq<Transaction>, id: int): (r: Option<nat>)
    ensures r.Some? ==> r.value < |rows| && rows[r.value].id == id
    ensures r.None? ==> forall i :: 0 <= i < |rows| ==> rows[i].id != id
  {
    if |rows| == 0 then None
    else if rows[|rows| - 1].id == id then Some(|rows| - 1)
    else FindId(rows[..|rows| - 1], id)
  }

  // ---------------------------------------------------------------- insert

  /** The store after an insert and the id `insert` returned. */
  datatype Insertion = Insertion(store: Store, id: int)

  /** `addTransaction`: the id of the record is ignored and AUTOINCREMENT
      assigns one larger than every id ever used; a type outside the CHECK
      constraint makes `insert` fail and return -1, leaving the table as it
      was. */
  function AddTransaction(s: Store, t: Transaction): (r: Insertion)
    requires Valid(s)
    ensures Valid(r.store)
    ensures ValidType(t.kind) ==>
      && r.id > 0 && !HasId(s, r.id)
      && r.store.rows == s.rows + [t.(id := r.id)]
    ensures ValidType(t.kind) ==> r.id == s.lastId + 1 && r.store.lastId == r.id
    ensures ValidType(t.kind) ==> forall i :: 0 <= i < |s.rows| ==> s.rows[i].id < r.id
    ensures !ValidType(t.kind) ==> r.id == -1 && r.store == s
  {
    if ValidType(t.kind) then
      var id := s.lastId + 1;
      Insertion(Store(s.rows + [t.(id := id)], id), id)
    else
      Insertion(s, -1)
  }

  /** An insert moves the balance by the new transaction's signed amount. */
  lemma AddMovesBalance(s: Store, t: Transaction)
    requires Valid(s)
    ensures Balance(AddTransaction(s, t).store.rows)
         == Balance(s.rows) + (if ValidType(t.kind) then Signed(t) else 0.0)
  {
    var r := AddTransaction(s, t);
    if ValidType(t.kind) {
      var u := t.(id := r.id);
      SumConcat(s.rows, [u], OfType(Income));
      SumConcat(s.rows, [u], OfType(Expense));
      SumSingle(u, OfType(Income));
      SumSingle(u, OfType(Expense));
    }
  }

  // --------------------------------------------------------------- listing

  /** `ORDER BY date DESC, id DESC`: `a` may come before `b`. */
  predicate ListedBefore(a: Transaction, b: Transaction) {
    Before(b.date, a.date) || (a.date == b.date && a.id >= b.id)
  }

  predicate Listed(ts: seq<Transaction>) {
    forall i, j :: 0 <= i < j < |ts| ==> ListedBefore(ts[i], ts[j])
  }

  lemma ListedBeforeTotal(a: Transaction, b: Transaction)
    ensures ListedBefore(a, b) || ListedBefore(b, a)
  {
  }

  lemma ListedBeforeTransitive(a: Transaction, b: Transaction, c: Transaction)
    requires ListedBefore(a, b) && ListedBefore(b, c)
    ensures ListedBefore(a, c)
  {
  }

  /** Putting `x` in front keeps the listing order when `x` belongs before
      the first row. */
  lemma ListedCons(x: Transaction, ts: seq<Transaction>)
    requires Listed(ts)
    requires |ts| == 0 || ListedBefore(x, ts[0])
    ensures Listed([x] + ts)
  {
    forall j | 0 < j < |ts|
      ensures ListedBefore(x, ts[j])
    {
      ListedBeforeTransitive(x, ts[0], ts[j]);
    }
  }

  /** The first row stays first when `x` goes somewhere after it. */
  lemma ListedInsertLater(x: Transaction, ts: seq<Transaction>, rest: seq<Transaction>)
    requires Listed(ts) && |ts| > 0 && !ListedBefore(x, ts[0])
    requires Listed(rest) && multiset(rest) == multiset(ts[1..]) + multiset{x}
    ensures Listed([ts[0]] + rest)
  {
    forall k | 0 <= k < |rest|
      ensures ListedBefore(ts[0], rest[k])
    {
      assert rest[k] in multiset(rest);
      if rest[k] == x {
        ListedBeforeTotal(x, ts[0]);
      } else {
        assert rest[k] in ts[1..];
        var j :| 0 <= j < |ts[1..]| && ts[1..][j] == rest[k];
        assert ts[j + 1] == rest[k];
      }
    }
    var r := [ts[0]] + rest;
    forall i, j | 0 <= i < j < |r|
      ensures ListedBefore(r[i], r[j])
    {
      if i > 0 {
        assert r[i] == rest[i - 1] && r[j] == rest[j - 1];
      }
    }
  }

  /** Inserting one row into a listing. */
  function Insert(x: Transaction, ts: seq<Transaction>): (r: seq<Transaction>)
    requires Listed(ts)
    ensures Listed(r)
    ensures multiset(r) == multiset(ts) + multiset{x}
    decreases |ts|
  {
    if |ts| == 0 || ListedBefore(x, ts[0]) then
      ListedCons(x, ts);
      [x] + ts
    else
      var rest := Insert(x, ts[1..]);
      ListedInsertLater(x, ts, rest);
      assert ts == [ts[0]] + ts[1..];
      [ts[0]] + rest
  }

  /** The rows in listing order. */
  function SortListing(ts: seq<Transaction>): (r: seq<Transaction>)
    ensures Listed(r)
    ensures multiset(r) == multiset(ts)
  {
    if |ts| == 0 then []
    else
      assert ts == ts[..|ts| - 1] + [ts[|ts| - 1]];
      Insert(ts[|ts| - 1], SortListing(ts[..|ts| - 1]))
  }

  /** `getAllTransactions`: every row exactly once, newest day first and,
      within a day, the most recently inserted first. */
  function GetAllTransactions(s: Store): (r: seq<Transaction>)
    ensures multiset(r) == multiset(s.rows)
    ensures |r| == |s.rows|
    ensures Listed(r)
  {
    assert |multiset(SortListing(s.rows))| == |multiset(s.rows)|;
    SortListing(s.rows)
  }

  /** The listing order is the order of the query itself: descending on the
      stored `yyyy-MM-dd` text and, for equal text, descending on id. */
  lemma ListingFollowsQuery(s: Store, i: nat, j: nat)
    requires i < j < |GetAllTransactions(s)|
    ensures var r := GetAllTransactions(s);
      && LexLe(Key(r[j].date), Key(r[i].date))
      && (Key(r[j].date) == Key(r[i].date) ==> r[i].id >= r[j].id)
  {
    var r := GetAllTransactions(s);
    KeyOrder(r[j].date, r[i].date);
  }

  /** `getTransactionsCount`. */
  function GetTransactionsCount(s: Store): (n: nat)
    ensures n == |GetAllTransactions(s)|
  {
    |s.rows|
  }

  // ---------------------------------------------------------- month query

  /** The rows whose stored day falls in `BETWEEN start AND end` for the
      month, in insertion order. */
  function MonthRows(ts: seq<Transaction>, ym: YearMonth): (r: seq<Transaction>)
    requires QueryableMonth(ym)
    ensures |r| <= |ts|
    ensures forall t :: t in r <==> t in ts && InMonthQuery(Key(t.date), ym)
    ensures forall t :: multiset(r)[t] == if InMonthQuery(Key(t.date), ym) then multiset(ts)[t] else 0
  {
    assert |ts| > 0 ==> ts == ts[..|ts| - 1] + [ts[|ts| - 1]];
    if |ts| == 0 then []
    else if InMonthQuery(Key(ts[|ts| - 1].date), ym) then MonthRows(ts[..|ts| - 1], ym) + [ts[|ts| - 1]]
    else MonthRows(ts[..|ts| - 1], ym)
  }

  /** `getTransactionsForMonth(year, month)` with the zero-based month of
      `Calendar`: the rows of the month, newest day first (rows of one day
      come most recent first). */
  function GetTransactionsForMonth(s: Store, ym: YearMonth): (r: seq<Transaction>)
    requires QueryableMonth(ym)
    ensures multiset(r) == multiset(MonthRows(s.rows, ym))
    ensures forall t :: t in r <==> t in s.rows && InMonthQuery(Key(t.date), ym)
    ensures forall i, j :: 0 <= i < j < |r| ==> !Before(r[i].date, r[j].date)
  {
    var r := SortListing(MonthRows(s.rows, ym));
    assert forall t :: t in r <==> t in multiset(MonthRows(s.rows, ym));
    r
  }

  /** The month query returns exactly the stored transactions dated in that
      calendar month. */
  lemma MonthQuerySelectsMonth(s: Store, ym: YearMonth, t: Transaction)
    requires QueryableMonth(ym)
    ensures t in GetTransactionsForMonth(s, ym)
        <==> t in s.rows && t.date.year == ym.year && t.date.month == ym.month0 + 1
  {
    MonthQueryExact(t.date, ym);
  }

  // -------------------------------------------------------------- balance

  /** `getCurrentBalance`: `SUM(amount) WHERE type='income'` minus the same
      for 'expense' (an empty `SUM` reads as 0). */
  function GetCurrentBalance(s: Store): real {
    Sum(s.rows, OfType(Income)) - Sum(s.rows, OfType(Expense))
  }

  /** The balance the store computes equals income minus expense over the
      listing the screens receive, and the screens' "everything that is not
      income is expense" rule gives the same figure. */
  lemma BalanceOfListing(s: Store)
    requires Valid(s)
    ensures GetCurrentBalance(s) == Balance(GetAllTransactions(s))
    ensures GetCurrentBalance(s)
         == Sum(GetAllTransactions(s), OfType(Income)) - Sum(GetAllTransactions(s), NotOfType(Income))
  {
    var r := GetAllTransactions(s);
    SumPermutation(s.rows, r, OfType(Income));
    SumPermutation(s.rows, r, OfType(Expense));
    ListingValid(s);
    NonIncomeIsExpense(r);
  }

  /** The listing holds only rows of admitted types. */
  lemma ListingValid(s: Store)
    requires Valid(s)
    ensures AllValidTypes(GetAllTransactions(s))
  {
    var r := GetAllTransactions(s);
    forall i | 0 <= i < |r|
      ensures ValidType(r[i].kind)
    {
      assert r[i] in multiset(s.rows);
    }
  }

  // --------------------------------------------------------------- update

  /** The outcome of `update`: the store and whether a row was changed, or
      the CHECK constraint failing (which `update` reports by throwing). */
  datatype Write = Write(store: Store, updated: bool) | ConstraintFailure

  function Replace(rows: seq<Transaction>, t: Transaction): (r: seq<Transaction>)
    ensures |r| == |rows|
    ensures forall i :: 0 <= i < |rows| && rows[i].id == t.id ==> r[i] == t
    ensures forall i :: 0 <= i < |rows| && rows[i].id != t.id ==> r[i] == rows[i]
  {
    if |rows| == 0 then []
    else Replace(rows[..|rows| - 1], t) + [if rows[|rows| - 1].id == t.id then t else rows[|rows| - 1]]
  }

  /** `updateTransaction`: the row with the record's id takes every other
      field of the record; no row changes when none has that id, and a type
      outside the CHECK constraint is rejected only when a row would take
      it. */
  function UpdateTransaction(s: Store, t: Transaction): (w: Write)
    requires Valid(s)
    ensures w.ConstraintFailure? <==> HasId(s, t.id) && !ValidType(t.kind)
    ensures w.Write? ==> Valid(w.store) && w.store.lastId == s.lastId
    ensures w.Write? ==> (w.updated <==> HasId(s, t.id))
    ensures w.Write? ==> |w.store.rows| == |s.rows|
    ensures w.Write? ==> forall i :: 0 <= i < |s.rows| && s.rows[i].id == t.id ==> w.store.rows[i] == t
    ensures w.Write? ==> forall i :: 0 <= i < |s.rows| && s.rows[i].id != t.id ==> w.store.rows[i] == s.rows[i]
  {
    match FindId(s.rows, t.id)
    case None => Write(s, false)
    case Some(k) =>
      if ValidType(t.kind) then Write(Store(Replace(s.rows, t), s.lastId), true)
      else ConstraintFailure
  }

  /** An update moves the balance by the difference between the new and the
      old signed amount of the row. */
  lemma UpdateMovesBalance(s: Store, t: Transaction, k: nat)
    requires Valid(s) && k < |s.rows| && s.rows[k].id == t.id && ValidType(t.kind)
    ensures UpdateTransaction(s, t).Write?
    ensures Balance(UpdateTransaction(s, t).store.rows) == Balance(s.rows) - Signed(s.rows[k]) + Signed(t)
  {
    var rows := s.rows;
    var rows' := UpdateTransaction(s, t).store.rows;
    assert rows'[..k] == rows[..k];
    assert rows'[k + 1..] == rows[k + 1..];
    assert rows'[..k] + rows'[k + 1..] == rows[..k] + rows[k + 1..];
    SumRemove(rows, k, OfType(Income));
    SumRemove(rows, k, OfType(Expense));
    SumRemove(rows', k, OfType(Income));
    SumRemove(rows', k, OfType(Expense));
  }

  // --------------------------------------------------------------- delete

  datatype Removal = Removal(store: Store, deleted: bool)

  /** `deleteTransaction`: removes the row with the id, reporting whether
      there was one; the other rows keep their order. */
  function DeleteTransaction(s: Store, id: int): (r: Removal)
    requires Valid(s)
    ensures Valid(r.store) && r.store.lastId == s.lastId
    ensures r.deleted <==> HasId(s, id)
    ensures !r.deleted ==> r.store == s
    ensures r.deleted ==> |r.store.rows| == |s.rows| - 1
    ensures forall t :: t in r.store.rows <==> t in s.rows && t.id != id
    ensures forall k :: 0 <= k < |s.rows| && s.rows[k].id == id ==>
      multiset(r.store.rows) == multiset(s.rows) - multiset{s.rows[k]}
    ensures forall k :: 0 <= k < |s.rows| && s.rows[k].id == id ==>
      r.store.rows == s.rows[..k] + s.rows[k + 1..]
  {
    match FindId(s.rows, id)
    case None => Removal(s, false)
    case Some(k) =>
      RemoveRow(s, k);
      Removal(Store(s.rows[..k] + s.rows[k + 1..], s.lastId), true)
  }

  /** Taking out the row at `k` removes exactly that row, and with it
      every row carrying its id. */
  lemma RemoveRow(s: Store, k: nat)
    requires Valid(s) && k < |s.rows|
    ensures var rows := s.rows[..k] + s.rows[k + 1..];
      && Valid(Store(rows, s.lastId))
      && multiset(rows) == multiset(s.rows) - multiset{s.rows[k]}
      && (forall t :: t in rows <==> t in s.rows && t.id != s.rows[k].id)
      && (forall j :: 0 <= j < |s.rows| && s.rows[j].id == s.rows[k].id ==> j == k)
  {
    var rows := Removed(s.rows, k);
    RemovedValid(s, k, rows);
    RemovedMembers(s, k, rows);
  }

  /** The rows left are the others: exactly those with another id. */
  lemma RemovedMembers(s: Store, k: nat, rows: seq<Transaction>)
    requires Valid(s) && k < |s.rows| && |rows| == |s.rows| - 1
    requires forall i :: 0 <= i < k ==> rows[i] == s.rows[i]
    requires forall i :: k <= i < |rows| ==> rows[i] == s.rows[i + 1]
    ensures forall t :: t in rows <==> t in s.rows && t.id != s.rows[k].id
  {
    forall t
      ensures t in rows <==> t in s.rows && t.id != s.rows[k].id
    {
      if t in rows {
        var j :| 0 <= j < |rows| && rows[j] == t;
        var j' := if j < k then j else j + 1;
        assert s.rows[j'] == t && j' != k;
      }
      if t in s.rows && t.id != s.rows[k].id {
        var j :| 0 <= j < |s.rows| && s.rows[j] == t;
        assert t == rows[if j < k then j else j - 1];
      }
    }
  }

  /** Taking a row out keeps the schema's guarantees. */
  lemma RemovedValid(s: Store, k: nat, rows: seq<Transaction>)
    requires Valid(s) && k < |s.rows| && |rows| == |s.rows| - 1
    requires forall i :: 0 <= i < k ==> rows[i] == s.rows[i]
    requires forall i :: k <= i < |rows| ==> rows[i] == s.rows[i + 1]
    ensures Valid(Store(rows, s.lastId))
  {
    assert forall i :: 0 <= i < |rows| ==> rows[i] == s.rows[if i < k then i else i + 1];
  }

  /** Deleting a row takes its signed amount back out of the balance. */
  lemma DeleteMovesBalance(s: Store, k: nat)
    requires Valid(s) && k < |s.rows|
    ensures Balance(DeleteTransaction(s, s.rows[k].id).store.rows) == Balance(s.rows) - Signed(s.rows[k])
  {
    var id := s.rows[k].id;
    assert FindId(s.rows, id) == Some(k);
    assert DeleteTransaction(s, id).store.rows == s.rows[..k] + s.rows[k + 1..];
    SumRemove(s.rows, k, OfType(Income));
    SumRemove(s.rows, k, OfType(Expense));
  }

  /** Adding a transaction and deleting it again by the returned id restores
      the table's rows. */
  lemma AddThenDelete(s: Store, t: Transaction)
    requires Valid(s) && ValidType(t.kind)
    ensures var a := AddTransaction(s, t);
      DeleteTransaction(a.store, a.id).store.rows == s.rows
  {
    var a := AddTransaction(s, t);
    var n := |s.rows|;
    assert a.store.rows[n].id == a.id;
    assert a.store.rows[..n] == s.rows;
  }

  // ------------------------------------------------------ category totals

  /** One row of the spending-per-category query. */
  datatype CategorySpending = CategorySpending(category: string, amount: real)

  predicate DistinctCategories(g: seq<CategorySpending>) {
    forall i, j :: 0 <= i < j < |g| ==> g[i].category != g[j].category
  }

  function FindCategory(g: seq<CategorySpending>, c: string): (r: Option<nat>)
    ensures r.Some? ==> r.value < |g| && g[r.value].category == c
    ensures r.None? ==> forall i :: 0 <= i < |g| ==> g[i].category != c
  {
    if |g| == 0 then None
    else if g[|g| - 1].category == c then Some(|g| - 1)
    else FindCategory(g[..|g| - 1], c)
  }

  /** The sum of the group amounts. */
  function Spent(g: seq<CategorySpending>): real {
    if |g| == 0 then 0.0 else Spent(g[..|g| - 1]) + g[|g| - 1].amount
  }

  lemma {:induction false} SpentAdd(g: seq<CategorySpending>, k: nat, a: real)
    requires k < |g|
    ensures Spent(g[k := CategorySpending(g[k].category, g[k].amount + a)]) == Spent(g) + a
  {
    var g' := g[k := CategorySpending(g[k].category, g[k].amount + a)];
    var n := |g| - 1;
    if k < n {
      assert g'[..n] == g[..n][k := CategorySpending(g[k].category, g[k].amount + a)];
      SpentAdd(g[..n], k, a);
    } else {
      assert g'[..n] == g[..n];
    }
  }

  /** Folding one more row into the groups. */
  function AddSpending(g: seq<CategorySpending>, t: Transaction): seq<CategorySpending> {
    match FindCategory(g, t.category)
    case Some(k) => g[k := CategorySpending(t.category, g[k].amount + t.amount)]
    case None => g + [CategorySpending(t.category, t.amount)]
  }

  predicate HasGroup(g: seq<CategorySpending>, c: string) {
    exists j :: 0 <= j < |g| && g[j].category == c
  }

  predicate HasCategory(ts: seq<Transaction>, c: string) {
    exists k :: 0 <= k < |ts| && ts[k].category == c
  }

  /** `g` is the `GROUP BY category` of `ts`: one group per category that
      occurs and no other, each holding its category's total. */
  predicate Grouping(ts: seq<Transaction>, g: seq<CategorySpending>) {
    && DistinctCategories(g)
    && (forall i :: 0 <= i < |g| ==> g[i].amount == Sum(ts, OfCategory(g[i].category)))
    && (forall i :: 0 <= i < |ts| ==> HasGroup(g, ts[i].category))
    && (forall i :: 0 <= i < |g| ==> HasCategory(ts, g[i].category))
  }

  /** `GROUP BY category` with `SUM(amount)`, groups in order of first
      appearance; the groups together hold all of the amounts. */
  function Group(ts: seq<Transaction>): (g: seq<CategorySpending>)
    ensures Grouping(ts, g)
    ensures Spent(g) == Sum(ts, Every)
  {
    if |ts| == 0 then []
    else
      var n := |ts| - 1;
      var g0 := Group(ts[..n]);
      GroupStep(ts, g0);
      SpentStep(ts, g0);
      AddSpending(g0, ts[n])
  }

  lemma SumStep(ts: seq<Transaction>, sel: Selector)
    requires |ts| > 0
    ensures Sum(ts, sel) == Sum(ts[..|ts| - 1], sel) + Share(ts[|ts| - 1], sel)
  {
  }

  lemma SpentStep(ts: seq<Transaction>, g0: seq<CategorySpending>)
    requires |ts| > 0 && Spent(g0) == Sum(ts[..|ts| - 1], Every)
    ensures Spent(AddSpending(g0, ts[|ts| - 1])) == Sum(ts, Every)
  {
    var t := ts[|ts| - 1];
    SumStep(ts, Every);
    match FindCategory(g0, t.category)
    case Some(k) =>
      SpentAdd(g0, k, t.amount);
    case None =>
      var g := g0 + [CategorySpending(t.category, t.amount)];
      assert g[..|g| - 1] == g0;
  }

  /** The inductive step of `Group`. */
  lemma GroupStep(ts: seq<Transaction>, g0: seq<CategorySpending>)
    requires |ts| > 0 && Grouping(ts[..|ts| - 1], g0)
    ensures Grouping(ts, AddSpending(g0, ts[|ts| - 1]))
  {
    var t := ts[|ts| - 1];
    var g := AddSpending(g0, t);
    match FindCategory(g0, t.category)
    case Some(k) =>
      GroupStepFound(ts, g0, k);
      assert g == g0[k := CategorySpending(t.category, g0[k].amount + t.amount)];
    case None =>
      GroupStepNew(ts, g0);
      assert g == g0 + [CategorySpending(t.category, t.amount)];
  }

  lemma GroupStepFound(ts: seq<Transaction>, g0: seq<CategorySpending>, k: nat)
    requires |ts| > 0 && Grouping(ts[..|ts| - 1], g0)
    requires k < |g0| && g0[k].category == ts[|ts| - 1].category
    ensures Grouping(ts, g0[k := CategorySpending(ts[|ts| - 1].category, g0[k].amount + ts[|ts| - 1].amount)])
  {
    var n := |ts| - 1;
    var t := ts[n];
    assert forall i :: 0 <= i < n ==> ts[..n][i] == ts[i];
    FoundDistinct(g0, k, g0[k].amount + t.amount);
    FoundAmounts(ts, g0, k);
    FoundCoverage(ts, g0, k);
    FoundOrigin(ts, g0, k);
  }

  lemma FoundDistinct(g0: seq<CategorySpending>, k: nat, a: real)
    requires DistinctCategories(g0) && k < |g0|
    ensures DistinctCategories(g0[k := CategorySpending(g0[k].category, a)])
  {
    var g := g0[k := CategorySpending(g0[k].category, a)];
    assert forall i :: 0 <= i < |g| ==> g[i].category == g0[i].category;
  }

  lemma FoundAmounts(ts: seq<Transaction>, g0: seq<CategorySpending>, k: nat)
    requires |ts| > 0 && DistinctCategories(g0)
    requires forall i :: 0 <= i < |g0| ==> g0[i].amount == Sum(ts[..|ts| - 1], OfCategory(g0[i].category))
    requires k < |g0| && g0[k].category == ts[|ts| - 1].category
    ensures var g := g0[k := CategorySpending(ts[|ts| - 1].category, g0[k].amount + ts[|ts| - 1].amount)];
      forall i :: 0 <= i < |g| ==> g[i].amount == Sum(ts, OfCategory(g[i].category))
  {
    var t := ts[|ts| - 1];
    var g := g0[k := CategorySpending(t.category, g0[k].amount + t.amount)];
    forall i | 0 <= i < |g|
      ensures g[i].amount == Sum(ts, OfCategory(g[i].category))
    {
      SumStep(ts, OfCategory(g[i].category));
    }
  }

  lemma FoundCoverage(ts: seq<Transaction>, g0: seq<CategorySpending>, k: nat)
    requires |ts| > 0
    requires forall i :: 0 <= i < |ts| - 1 ==> HasGroup(g0, ts[i].category)
    requires k < |g0| && g0[k].category == ts[|ts| - 1].category
    ensures var g := g0[k := CategorySpending(ts[|ts| - 1].category, g0[k].amount + ts[|ts| - 1].amount)];
      forall i :: 0 <= i < |ts| ==> HasGroup(g, ts[i].category)
  {
    var n := |ts| - 1;
    var t := ts[n];
    var g := g0[k := CategorySpending(t.category, g0[k].amount + t.amount)];
    forall i | 0 <= i < |ts|
      ensures HasGroup(g, ts[i].category)
    {
      if i < n {
        var j :| 0 <= j < |g0| && g0[j].category == ts[i].category;
        assert g[j].category == g0[j].category;
      } else {
        assert g[k].category == t.category;
      }
    }
  }

  lemma FoundOrigin(ts: seq<Transaction>, g0: seq<CategorySpending>, k: nat)
    requires |ts| > 0
    requires forall i :: 0 <= i < |g0| ==> HasCategory(ts[..|ts| - 1], g0[i].category)
    requires k < |g0| && g0[k].category == ts[|ts| - 1].category
    ensures var g := g0[k := CategorySpending(ts[|ts| - 1].category, g0[k].amount + ts[|ts| - 1].amount)];
      forall i :: 0 <= i < |g| ==> HasCategory(ts, g[i].category)
  {
    var n := |ts| - 1;
    var t := ts[n];
    var g := g0[k := CategorySpending(t.category, g0[k].amount + t.amount)];
    forall i | 0 <= i < |g|
      ensures HasCategory(ts, g[i].category)
    {
      assert HasCategory(ts[..n], g0[i].category);
      var j :| 0 <= j < n && ts[..n][j].category == g0[i].category;
      assert ts[j].category == g[i].category;
    }
  }

  lemma GroupStepNew(ts: seq<Transaction>, g0: seq<CategorySpending>)
    requires |ts| > 0 && Grouping(ts[..|ts| - 1], g0)
    requires FindCategory(g0, ts[|ts| - 1].category).None?
    ensures Grouping(ts, g0 + [CategorySpending(ts[|ts| - 1].category, ts[|ts| - 1].amount)])
  {
    var n := |ts| - 1;
    assert forall i :: 0 <= i < n ==> ts[..n][i] == ts[i];
    NewAmounts(ts, g0);
    NewCoverage(ts, g0);
    NewOrigin(ts, g0);
  }

  lemma NewAmounts(ts: seq<Transaction>, g0: seq<CategorySpending>)
    requires |ts| > 0
    requires forall i :: 0 <= i < |ts| - 1 ==> HasGroup(g0, ts[i].category)
    requires forall i :: 0 <= i < |g0| ==> g0[i].amount == Sum(ts[..|ts| - 1], OfCategory(g0[i].category))
    requires FindCategory(g0, ts[|ts| - 1].category).None?
    ensures var g := g0 + [CategorySpending(ts[|ts| - 1].category, ts[|ts| - 1].amount)];
      forall i :: 0 <= i < |g| ==> g[i].amount == Sum(ts, OfCategory(g[i].category))
  {
    var n := |ts| - 1;
    var t := ts[n];
    var before := ts[..n];
    var g := g0 + [CategorySpending(t.category, t.amount)];
    forall i | 0 <= i < n
      ensures !Selects(OfCategory(t.category), before[i])
    {
      assert HasGroup(g0, ts[i].category);
    }
    SumNoneSelected(before, OfCategory(t.category));
    forall i | 0 <= i < |g|
      ensures g[i].amount == Sum(ts, OfCategory(g[i].category))
    {
      SumStep(ts, OfCategory(g[i].category));
    }
  }

  lemma NewCoverage(ts: seq<Transaction>, g0: seq<CategorySpending>)
    requires |ts| > 0
    requires forall i :: 0 <= i < |ts| - 1 ==> HasGroup(g0, ts[i].category)
    ensures var g := g0 + [CategorySpending(ts[|ts| - 1].category, ts[|ts| - 1].amount)];
      forall i :: 0 <= i < |ts| ==> HasGroup(g, ts[i].category)
  {
    var n := |ts| - 1;
    var g := g0 + [CategorySpending(ts[n].category, ts[n].amount)];
    forall i | 0 <= i < |ts|
      ensures HasGroup(g, ts[i].category)
    {
      if i < n {
        var j :| 0 <= j < |g0| && g0[j].category == ts[i].category;
        assert g[j].category == ts[i].category;
      } else {
        assert g[|g0|].category == ts[n].category;
      }
    }
  }

  lemma NewOrigin(ts: seq<Transaction>, g0: seq<CategorySpending>)
    requires |ts| > 0
    requires forall i :: 0 <= i < |g0| ==> HasCategory(ts[..|ts| - 1], g0[i].category)
    ensures var g := g0 + [CategorySpending(ts[|ts| - 1].category, ts[|ts| - 1].amount)];
      forall i :: 0 <= i < |g| ==> HasCategory(ts, g[i].category)
  {
    var n := |ts| - 1;
    var g := g0 + [CategorySpending(ts[n].category, ts[n].amount)];
    forall i | 0 <= i < |g|
      ensures HasCategory(ts, g[i].category)
    {
      if i < |g0| {
        assert HasCategory(ts[..n], g0[i].category);
        var j :| 0 <= j < n && ts[..n][j].category == g0[i].category;
        assert ts[j].category == g[i].category;
      } else {
        assert ts[n].category == g[i].category;
      }
    }
  }

  /** `getCategorySpending(year, month)`: the month's expenses grouped by
      category. */
  function GetCategorySpending(s: Store, ym: YearMonth): (g: seq<CategorySpending>)
    requires QueryableMonth(ym)
    ensures DistinctCategories(g)
    ensures forall i :: 0 <= i < |g| ==>
      g[i].amount == Sum(MonthRows(s.rows, ym), Both(OfType(Expense), OfCategory(g[i].category)))
    ensures Spent(g) == Sum(MonthRows(s.rows, ym), OfType(Expense))
    ensures forall i :: 0 <= i < |g| ==> HasExpense(MonthRows(s.rows, ym), g[i].category)
  {
    var month := MonthRows(s.rows, ym);
    var g := Group(Filter(month, OfType(Expense)));
    SpendingAmounts(month, g);
    SpendingTotal(month, g);
    GroupsFromExpenses(month, g);
    g
  }

  /** Each group of the month's expenses holds the sum of the month's
      expenses of its category. */
  lemma SpendingAmounts(month: seq<Transaction>, g: seq<CategorySpending>)
    requires forall i :: 0 <= i < |g| ==>
      g[i].amount == Sum(Filter(month, OfType(Expense)), OfCategory(g[i].category))
    ensures forall i :: 0 <= i < |g| ==>
      g[i].amount == Sum(month, Both(OfType(Expense), OfCategory(g[i].category)))
  {
    forall i | 0 <= i < |g|
      ensures g[i].amount == Sum(month, Both(OfType(Expense), OfCategory(g[i].category)))
    {
      FilterSum(month, OfType(Expense), OfCategory(g[i].category));
    }
  }

  /** The groups of the month's expenses hold all of them. */
  lemma SpendingTotal(month: seq<Transaction>, g: seq<CategorySpending>)
    requires Spent(g) == Sum(Filter(month, OfType(Expense)), Every)
    ensures Spent(g) == Sum(month, OfType(Expense))
  {
    FilterSum(month, OfType(Expense), Every);
    SumEquivalent(month, Both(OfType(Expense), Every), OfType(Expense));
  }

  /** There are no groups exactly when the month holds no expense. */
  lemma NoSpendingExactly(s: Store, ym: YearMonth)
    requires QueryableMonth(ym)
    ensures GetCategorySpending(s, ym) == [] <==>
      forall t :: t in MonthRows(s.rows, ym) ==> t.kind != Expense
  {
    var expenses := Filter(MonthRows(s.rows, ym), OfType(Expense));
    var g := Group(expenses);
    assert GetCategorySpending(s, ym) == g;
    if expenses != [] {
      assert HasGroup(g, expenses[0].category);
      assert expenses[0] in expenses;
    }
    if g != [] {
      assert HasCategory(expenses, g[0].category);
      var k :| 0 <= k < |expenses| && expenses[k].category == g[0].category;
      assert expenses[k] in expenses;
    }
  }

  /** Some expense in `ts` carries category `c`. */
  predicate HasExpense(ts: seq<Transaction>, c: string) {
    exists t :: t in ts && t.kind == Expense && t.category == c
  }

  /** A group over the month's expenses comes from an expense of its
      category. */
  lemma GroupsFromExpenses(month: seq<Transaction>, g: seq<CategorySpending>)
    requires forall i :: 0 <= i < |g| ==> HasCategory(Filter(month, OfType(Expense)), g[i].category)
    ensures forall i :: 0 <= i < |g| ==> HasExpense(month, g[i].category)
  {
    var expenses := Filter(month, OfType(Expense));
    forall i | 0 <= i < |g|
      ensures HasExpense(month, g[i].category)
    {
      assert HasCategory(expenses, g[i].category);
      var k :| 0 <= k < |expenses| && expenses[k].category == g[i].category;
      assert expenses[k] in expenses;
    }
  }

  /** A group's category is that of a stored expense of the month. */
  lemma GroupHasExpense(s: Store, ym: YearMonth, c: string)
    requires QueryableMonth(ym) && HasGroup(GetCategorySpending(s, ym), c)
    ensures exists t :: (t in s.rows && t.kind == Expense && t.category == c
      && t.date.year == ym.year && t.date.month == ym.month0 + 1)
  {
    var g := GetCategorySpending(s, ym);
    var j :| 0 <= j < |g| && g[j].category == c;
    assert HasExpense(MonthRows(s.rows, ym), c);
    var t :| t in MonthRows(s.rows, ym) && t.kind == Expense && t.category == c;
    MonthQueryExact(t.date, ym);
  }

  /** A stored expense of the month has a group for its category. */
  lemma ExpenseHasGroup(s: Store, ym: YearMonth, t: Transaction)
    requires QueryableMonth(ym)
    requires t in s.rows && t.kind == Expense && t.date.year == ym.year && t.date.month == ym.month0 + 1
    ensures HasGroup(GetCategorySpending(s, ym), t.category)
  {
    MonthQueryExact(t.date, ym);
    var expenses := Filter(MonthRows(s.rows, ym), OfType(Expense));
    assert Selects(OfType(Expense), t);
    var k :| 0 <= k < |expenses| && expenses[k] == t;
  }

  /** The groups name exactly the categories of the month's expenses: a
      category has a group if and only if some stored expense of that
      calendar month carries it. */
  lemma CategoriesOfMonth(s: Store, ym: YearMonth, c: string)
    requires QueryableMonth(ym)
    ensures HasGroup(GetCategorySpending(s, ym), c) <==>
      exists t :: (t in s.rows && t.kind == Expense && t.category == c
        && t.date.year == ym.year && t.date.month == ym.month0 + 1)
  {
    if HasGroup(GetCategorySpending(s, ym), c) {
      GroupHasExpense(s, ym, c);
    }
    if exists t :: (t in s.rows && t.kind == Expense && t.category == c
        && t.date.year == ym.year && t.date.month == ym.month0 + 1) {
      var t :| t in s.rows && t.kind == Expense && t.category == c
        && t.date.year == ym.year && t.date.month == ym.month0 + 1;
      ExpenseHasGroup(s, ym, t);
    }
  }
}

=== FILE: dates.dfy ===
/** Calendar days, the `yyyy-MM-dd` text under which the store keeps them,
    and the (year, month) cursor the report screens step through. */
module Dates {
  import opened Wrappers
  import opened Text

  /** A day of the proleptic calendar; `month` runs 1..12 as in the stored
      text (the Java `Calendar` numbers months 0..11, see `YearMonth`). */
  datatype Date = Date(year: int, month: int, day: int)

  /** `GregorianCalendar` uses the Julian leap rule up to its 1582 cut-over. */
  predicate IsLeapYear(y: int) {
    if y <= 1582 then y % 4 == 0
    else (y % 4 == 0 && y % 100 != 0) || y % 400 == 0
  }

  /** `Calendar.getActualMaximum(DAY_OF_MONTH)`. */
  function DaysInMonth(y: int, m: int): int
    requires 1 <= m <= 12
  {
    if m == 2 then (if IsLeapYear(y) then 29 else 28)
    else if m == 4 || m == 6 || m == 9 || m == 11 then 30
    else 31
  }

  predicate ValidDate(d: Date) {
    && 1 <= d.year <= 9999
    && 1 <= d.month <= 12
    && 1 <= d.day <= DaysInMonth(d.year, d.month)
  }

  /** The days a `java.util.Date` can name and `yyyy-MM-dd` prints in four
      year digits. */
  type CalendarDate = d: Date | ValidDate(d) witness Date(1970, 1, 1)

  /** Chronological order of days. */
  predicate Before(a: Date, b: Date) {
    || a.year < b.year
    || (a.year == b.year && a.month < b.month)
    || (a.year == b.year && a.month == b.month && a.day < b.day)
  }

  /** The TEXT value the store keeps for a day: `yyyy-MM-dd`. */
  function Key(d: CalendarDate): (k: string)
    ensures |k| == 10
  {
    Pad(d.year, 4) + ("-" + (Pad(d.month, 2) + ("-" + Pad(d.day, 2))))
  }

  predicate AllDigits(s: string) {
    forall i :: 0 <= i < |s| ==> '0' <= s[i] <= '9'
  }

  /** `SimpleDateFormat("yyyy-MM-dd").parse` on the stored text. */
  function ParseKey(k: string): (r: Option<Date>)
    ensures r.Some? ==> |k| == 10 && k[4] == '-' && k[7] == '-'
  {
    if |k| == 10 && k[4] == '-' && k[7] == '-'
      && AllDigits(k[..4]) && AllDigits(k[5..7]) && AllDigits(k[8..])
    then Some(Date(Value(k[..4]), Value(k[5..7]), Value(k[8..])))
    else None
  }

  /** The store writes a day as text and reads it back unchanged, so
      keeping the day itself in the model loses nothing. */
  lemma KeyRoundTrip(d: CalendarDate)
    ensures ParseKey(Key(d)) == Some(d)
  {
    var k := Key(d);
    assert Pow10(2) == 100 && Pow10(4) == 10000;
    assert k[..4] == Pad(d.year, 4);
    assert k[5..7] == Pad(d.month, 2);
    assert k[8..] == Pad(d.day, 2);
    PadValue(d.year, 4);
    PadValue(d.month, 2);
    PadValue(d.day, 2);
  }

  /** The store compares dates as strings; for stored days that is exactly
      chronological order, and equal strings are equal days. */
  lemma KeyOrder(a: CalendarDate, b: CalendarDate)
    ensures LexLess(Key(a), Key(b)) <==> Before(a, b)
    ensures Key(a) == Key(b) <==> a == b
  {
    assert Pow10(2) == 100 && Pow10(4) == 10000;
    var ya, ma, da := Pad(a.year, 4), Pad(a.month, 2), Pad(a.day, 2);
    var yb, mb, db := Pad(b.year, 4), Pad(b.month, 2), Pad(b.day, 2);
    PadOrder(a.year, b.year, 4);
    PadOrder(a.month, b.month, 2);
    PadOrder(a.day, b.day, 2);
    PadInjective(a.year, b.year, 4);
    PadInjective(a.month, b.month, 2);
    PadInjective(a.day, b.day, 2);
    LexIrreflexive("-");
    LexConcat("-", da, "-", db);
    LexConcat(ma, "-" + da, mb, "-" + db);
    LexConcat("-", ma + ("-" + da), "-", mb + ("-" + db));
    LexConcat(ya, "-" + (ma + ("-" + da)), yb, "-" + (mb + ("-" + db)));
    ConcatEq("-", da, "-", db);
    ConcatEq(ma, "-" + da, mb, "-" + db);
    ConcatEq("-", ma + ("-" + da), "-", mb + ("-" + db));
    ConcatEq(ya, "-" + (ma + ("-" + da)), yb, "-" + (mb + ("-" + db)));
  }

  /** The month cursor of the report screens: a `Calendar`'s YEAR and its
      zero-based MONTH field. */
  datatype YearMonth = YearMonth(year: int, month0: int)

  predicate ValidMonth(ym: YearMonth) {
    0 <= ym.month0 < 12
  }

  /** Months counted from year 0, so that "one month later" is "+1". */
  function MonthIndex(ym: YearMonth): int {
    ym.year * 12 + ym.month0
  }

  /** `Calendar.add(MONTH, 1)`. */
  function NextMonth(ym: YearMonth): (r: YearMonth)
    requires ValidMonth(ym)
    ensures ValidMonth(r)
    ensures MonthIndex(r) == MonthIndex(ym) + 1
  {
    if ym.month0 == 11 then YearMonth(ym.year + 1, 0) else YearMonth(ym.year, ym.month0 + 1)
  }

  /** `Calendar.add(MONTH, -1)`. */
  function PrevMonth(ym: YearMonth): (r: YearMonth)
    requires ValidMonth(ym)
    ensures ValidMonth(r)
    ensures MonthIndex(r) == MonthIndex(ym) - 1
  {
    if ym.month0 == 0 then YearMonth(ym.year - 1, 11) else YearMonth(ym.year, ym.month0 - 1)
  }

  /** A valid cursor is determined by its month index. */
  lemma MonthIndexInjective(a: YearMonth, b: YearMonth)
    requires ValidMonth(a) && ValidMonth(b)
    ensures MonthIndex(a) == MonthIndex(b) <==> a == b
  {
  }

  /** Going back a month and then forward again (or the reverse) returns to
      the month one started from. */
  lemma NavigationRoundTrip(ym: YearMonth)
    requires ValidMonth(ym)
    ensures NextMonth(PrevMonth(ym)) == ym
    ensures PrevMonth(NextMonth(ym)) == ym
  {
    MonthIndexInjective(NextMonth(PrevMonth(ym)), ym);
    MonthIndexInjective(PrevMonth(NextMonth(ym)), ym);
  }

  /** A cursor that the store's month queries accept. */
  predicate QueryableMonth(ym: YearMonth) {
    ValidMonth(ym) && 1 <= ym.year <= 9999
  }

  /** `cal.set(year, month, 1)`: the first day of the month. */
  function FirstDay(ym: YearMonth): CalendarDate
    requires QueryableMonth(ym)
  {
    Date(ym.year, ym.month0 + 1, 1)
  }

  /** The same month with `DAY_OF_MONTH` set to its actual maximum. */
  function LastDay(ym: YearMonth): CalendarDate
    requires QueryableMonth(ym)
  {
    Date(ym.year, ym.month0 + 1, DaysInMonth(ym.year, ym.month0 + 1))
  }

  /** `date BETWEEN start AND end` on the stored TEXT. */
  predicate InMonthQuery(key: string, ym: YearMonth)
    requires QueryableMonth(ym)
  {
    LexLe(Key(FirstDay(ym)), key) && LexLe(key, Key(LastDay(ym)))
  }

  /** The string range the month queries use selects exactly the days of
      that calendar month. */
  lemma MonthQueryExact(d: CalendarDate, ym: YearMonth)
    requires QueryableMonth(ym)
    ensures InMonthQuery(Key(d), ym) <==> d.year == ym.year && d.month == ym.month0 + 1
  {
    KeyOrder(FirstDay(ym), d);
    KeyOrder(d, LastDay(ym));
  }
}

=== FILE: home.dfy ===
/** `HomeFragment`: the summary card (balance, income, expense in the
    chosen display currency), the display-currency dialog and deleting a
    transaction from the list. */
module HomeFragment {
  import opened Wrappers
  import opened Text
  import opened Models
  import opened CurrencyService
  import DatabaseHelper

  /** The display currency before one is chosen. */
  const DefaultDisplay: string := "IDR"

  /** The line under the balance. */
  datatype Note = NoNote | InRupiah(balance: real) | ConversionFailed | LocalRates

  /** What the card shows, and the service's table afterwards. */
  datatype Card = Card(figures: Summary, note: Note, rates: Rates)

  /** Every figure converted from IDR to `display` on table `t`. */
  function ConvertSummary(t: Rates, s: Summary, display: string): (c: Summary)
    requires PositiveRates(t)
    ensures c.balance == ConvertCurrency(t, s.balance, "IDR", display).value
    ensures c.income == ConvertCurrency(t, s.income, "IDR", display).value
    ensures c.expense == ConvertCurrency(t, s.expense, "IDR", display).value
  {
    Summary(
      ConvertCurrency(t, s.balance, "IDR", display).value,
      ConvertCurrency(t, s.income, "IDR", display).value,
      ConvertCurrency(t, s.expense, "IDR", display).value)
  }

  /** The rest of `updateSummary` once the totals are known. For a display
      currency other than IDR with a service present, the rates are fetched
      (`online`, `api`, `onlineAfterFailure` and `now` are what the fetch
      sees) and each figure converted separately; otherwise the figures are
      shown as they are. */
  function ShowSummary(s: Summary, display: string, service: bool, rates: Rates,
                       online: bool, api: ApiOutcome, onlineAfterFailure: bool, now: int): (c: Card)
    requires PositiveRates(rates)
    requires api.Fetched? ==> PositiveRates(api.rates)
    ensures PositiveRates(c.rates)
    ensures display == "IDR" || !service ==> c == Card(s, NoNote, rates)
    ensures display != "IDR" && service ==>
      c.rates == GetExchangeRates(rates, online, api, onlineAfterFailure, now).rates
    ensures c.note.InRupiah? <==>
      display != "IDR" && service && GetExchangeRates(rates, online, api, onlineAfterFailure, now).callback.OnSuccess?
    ensures c.note.InRupiah? ==> c.note.balance == s.balance && c.figures == ConvertSummary(c.rates, s, display)
    ensures !c.note.InRupiah? ==> c.figures == s
    ensures c.note == ConversionFailed <==>
      display != "IDR" && service && GetExchangeRates(rates, online, api, onlineAfterFailure, now).callback.OnError?
    ensures c.note == LocalRates <==>
      display != "IDR" && service && GetExchangeRates(rates, online, api, onlineAfterFailure, now).callback == OnNetworkError
  {
    if display != "IDR" && service then
      var f := GetExchangeRates(rates, online, api, onlineAfterFailure, now);
      match f.callback
      case OnSuccess(_) => Card(ConvertSummary(f.rates, s, display), InRupiah(s.balance), f.rates)
      case OnError(_) => Card(s, ConversionFailed, f.rates)
      case OnNetworkError => Card(s, LocalRates, f.rates)
    else Card(s, NoNote, rates)
  }

  /** Whatever the display currency and whatever the fetch did, the balance
      shown is the income shown minus the expense shown. */
  lemma ShownBalanceConsistent(s: Summary, display: string, service: bool, rates: Rates,
                               online: bool, api: ApiOutcome, onlineAfterFailure: bool, now: int)
    requires PositiveRates(rates)
    requires api.Fetched? ==> PositiveRates(api.rates)
    requires s.balance == s.income - s.expense
    ensures var c := ShowSummary(s, display, service, rates, online, api, onlineAfterFailure, now);
      c.figures.balance == c.figures.income - c.figures.expense
  {
    var c := ShowSummary(s, display, service, rates, online, api, onlineAfterFailure, now);
    if c.note.InRupiah? {
      ConvertLinear(c.rates, s.income, s.expense, "IDR", display);
    }
  }

  /** `updateSummary` on the list the screen holds: totals, then the card.
      Whatever the fetch does, the card's balance is its income minus its
      expense. Unconverted, the figures are the sums over the list;
      after a successful fetch they are those sums converted. */
  method UpdateSummary(list: seq<Transaction>, display: string, service: bool, rates: Rates,
                       online: bool, api: ApiOutcome, onlineAfterFailure: bool, now: int) returns (c: Card)
    requires PositiveRates(rates)
    requires api.Fetched? ==> PositiveRates(api.rates)
    ensures c.figures.balance == c.figures.income - c.figures.expense
    ensures !c.note.InRupiah? ==>
      c.figures.income == Sum(list, OfType(Income)) && c.figures.expense == Sum(list, NotOfType(Income))
    ensures c.note.InRupiah? ==> c.note.balance == Sum(list, OfType(Income)) - Sum(list, NotOfType(Income))
    ensures PositiveRates(c.rates)
    ensures c.note.InRupiah? <==>
      display != "IDR" && service && GetExchangeRates(rates, online, api, onlineAfterFailure, now).callback.OnSuccess?
    ensures c.note.InRupiah? ==>
      var income := Sum(list, OfType(Income));
      var expense := Sum(list, NotOfType(Income));
      c.figures == ConvertSummary(c.rates, Summary(income - expense, income, expense), display)
    ensures var income := Sum(list, OfType(Income));
      var expense := Sum(list, NotOfType(Income));
      c == ShowSummary(Summary(income - expense, income, expense), display, service, rates,
                       online, api, onlineAfterFailure, now)
  {
    var s := Totals(list);
    c := ShowSummary(s, display, service, rates, online, api, onlineAfterFailure, now);
    ShownBalanceConsistent(s, display, service, rates, online, api, onlineAfterFailure, now);
  }

  /** The colour of the balance figure (`updateSummaryUI`). */
  datatype Colour = White | Red

  function BalanceColour(balance: real): Colour {
    if balance >= 0.0 then White else Red
  }

  /** The balance is shown in red exactly when the balance in rupiah is
      negative, whatever currency it is displayed in. */
  lemma RedExactlyWhenNegative(s: Summary, display: string, service: bool, rates: Rates,
                               online: bool, api: ApiOutcome, onlineAfterFailure: bool, now: int)
    requires PositiveRates(rates)
    requires api.Fetched? ==> PositiveRates(api.rates)
    ensures var c := ShowSummary(s, display, service, rates, online, api, onlineAfterFailure, now);
      BalanceColour(c.figures.balance) == Red <==> s.balance < 0.0
  {
    var c := ShowSummary(s, display, service, rates, online, api, onlineAfterFailure, now);
    if c.note.InRupiah? {
      ConvertLinear(c.rates, s.balance, 0.0, "IDR", display);
    }
  }

  // ---------------------------------------------------- currency dialog

  const Separator: string := " - "

  /** `entry.contains(" - ") ? entry.split(" - ")[0] : entry`. `split`
      drops trailing empty pieces, so a label made only of separators
      splits into nothing and indexing it throws: `None`. */
  function LabelCode(entry: string): (r: Option<string>)
    ensures IndexOf(entry, Separator).None? ==> r == Some(entry)
    ensures r.Some? && IndexOf(entry, Separator).Some? ==>
      r.value == entry[..IndexOf(entry, Separator).value]
    ensures r.None? <==> OnlySeparators(entry)
  {
    match IndexOf(entry, Separator)
    case None =>
      NotOnlySeparators(entry);
      Some(entry)
    case Some(k) =>
      if k > 0 then
        NotOnlySeparators(entry);
        Some(entry[..k])
      else if OnlySeparators(entry) then None
      else Some("")
  }

  /** The text is one or more separators and nothing else. */
  predicate OnlySeparators(s: string)
    decreases |s|
  {
    |s| >= 3 && s[..3] == Separator && (|s| == 3 || OnlySeparators(s[3..]))
  }

  /** Text made only of separators has one at the very start. */
  lemma NotOnlySeparators(s: string)
    requires IndexOf(s, Separator) != Some(0)
    ensures !OnlySeparators(s)
  {
  }

  /** The label of a supported currency maps back to its code. */
  lemma LabelCodeOfLabel(c: string)
    requires c in Countries
    ensures LabelCode(Label(c)) == Some(c)
  {
    var l := Label(c);
    CodesHaveThreeLetters(c);
    assert l[..3] == c;
    assert OccursAt(l, Separator, 3);
    forall k | 0 <= k < 3
      ensures !OccursAt(l, Separator, k)
    {
      assert l[k] == c[k];
    }
    assert IndexOf(l, Separator) == Some(3);
  }

  /** Every label the service offers maps back to its own code. */
  lemma LabelCodeOfOffered(l: string)
    requires l in AvailableCurrencies()
    ensures LabelCode(l).Some? && LabelCode(l).value in CurrencyNames()
    ensures CurrencyNames()[LabelCode(l).value] == l
  {
    LabelsNameTheirCode();
    var c := l[..3];
    assert c in Countries;
    assert l == Label(c);
    LabelCodeOfLabel(c);
  }

  /** The codes for a list of labels, or `None` when one of them throws. */
  function LabelCodes(labels: seq<string>): (r: Option<seq<string>>)
    ensures r.Some? ==> |r.value| == |labels|
    ensures r.Some? ==> forall i :: 0 <= i < |labels| ==> LabelCode(labels[i]) == Some(r.value[i])
    ensures r.None? ==> exists i :: 0 <= i < |labels| && LabelCode(labels[i]).None?
  {
    if |labels| == 0 then Some([])
    else
      var n := |labels| - 1;
      match (LabelCodes(labels[..n]), LabelCode(labels[n]))
      case (Some(cs), Some(c)) => Some(cs + [c])
      case (None, _) => None
      case (_, None) => None
  }

  /** The codes offered when the service reports an error. */
  const FallbackCodes: seq<string> := ["IDR", "USD", "EUR", "JPY", "GBP"]

  /** The single-choice dialog: its codes and the checked position. */
  datatype Dialog = Choices(codes: seq<string>, checked: int) | NoDialog

  /** `showCurrencyDialog` for the callback the fetch delivered and the
      labels `getAvailableCurrencies` returned. */
  function CurrencyDialog(callback: Callback, labels: seq<string>, display: string): (d: Dialog)
    ensures callback.OnError? ==> d == Choices(FallbackCodes, IndexIn(FallbackCodes, display))
    ensures callback.OnNetworkError? ==> d == NoDialog
    ensures callback.OnSuccess? ==> (d.Choices? <==> LabelCodes(labels).Some?)
    ensures d.Choices? && callback.OnSuccess? ==> d.codes == LabelCodes(labels).value
    ensures d.Choices? ==> -1 <= d.checked < |d.codes|
    ensures d.Choices? && d.checked >= 0 ==> d.codes[d.checked] == display
  {
    match callback
    case OnSuccess(_) =>
      (match LabelCodes(labels)
       case Some(codes) => Choices(codes, IndexIn(codes, display))
       case None => NoDialog)
    case OnError(_) => Choices(FallbackCodes, IndexIn(FallbackCodes, display))
    case OnNetworkError => NoDialog
  }

  /** For the labels the service offers, the dialog opens and lists the
      code of each entry, every one a supported currency. */
  lemma OfferedLabelsGiveCodes(labels: seq<string>, display: string, rates: Rates)
    requires forall i :: 0 <= i < |labels| ==> labels[i] in AvailableCurrencies()
    ensures var d := CurrencyDialog(OnSuccess(rates), labels, display);
      && d.Choices? && |d.codes| == |labels|
      && forall i :: 0 <= i < |labels| ==> d.codes[i] in CurrencyNames() && CurrencyNames()[d.codes[i]] == labels[i]
  {
    forall i | 0 <= i < |labels|
      ensures LabelCode(labels[i]).Some? && LabelCode(labels[i]).value in CurrencyNames()
      ensures CurrencyNames()[LabelCode(labels[i]).value] == labels[i]
    {
      LabelCodeOfOffered(labels[i]);
    }
    var codes := LabelCodes(labels);
    assert codes.Some?;
    var d := CurrencyDialog(OnSuccess(rates), labels, display);
    assert d.codes == codes.value;
    assert forall i :: 0 <= i < |labels| ==> d.codes[i] == LabelCode(labels[i]).value;
  }

  // ------------------------------------------------------------ delete

  /** The list on screen next to the store it was loaded from. */
  datatype Screen = Screen(store: DatabaseHelper.Store, list: seq<Transaction>)

  /** Confirming the delete of `t`: only when the store reports a row
      removed does the list change, and it is then reloaded from the
      store. */
  function DeleteTransaction(h: Screen, t: Transaction): (r: Screen)
    requires DatabaseHelper.Valid(h.store)
    ensures DatabaseHelper.Valid(r.store)
    ensures !DatabaseHelper.HasId(h.store, t.id) ==> r == h
    ensures DatabaseHelper.HasId(h.store, t.id) ==>
      && r.store == DatabaseHelper.DeleteTransaction(h.store, t.id).store
      && r.list == DatabaseHelper.GetAllTransactions(r.store)
  {
    var removal := DatabaseHelper.DeleteTransaction(h.store, t.id);
    if removal.deleted then Screen(removal.store, DatabaseHelper.GetAllTransactions(removal.store))
    else h
  }

  /** Deleting a listed transaction takes exactly that transaction out of
      the list on screen. */
  lemma DeleteRemovesFromList(h: Screen, t: Transaction)
    requires DatabaseHelper.Valid(h.store)
    requires h.list == DatabaseHelper.GetAllTransactions(h.store) && t in h.list
    ensures multiset(DeleteTransaction(h, t).list) == multiset(h.list) - multiset{t}
  {
    assert t in multiset(h.store.rows);
    var k :| 0 <= k < |h.store.rows| && h.store.rows[k] == t;
    assert DatabaseHelper.HasId(h.store, t.id);
  }
}

=== FILE: main_activity.dfy ===
/** `MainActivity`: the theme saved under "app_theme", the night mode it
    selects, and the theme dialog. */
module MainActivity {
  import opened Wrappers

  const ThemeLight: string := "light"
  const ThemeDark: string := "dark"
  const ThemeSystem: string := "system"

  /** The modes of `AppCompatDelegate.setDefaultNightMode`. */
  datatype NightMode = NightNo | NightYes | FollowSystem

  /** `prefs.getString(KEY_THEME, THEME_LIGHT)`: the stored theme, or light
      when none is stored. */
  function SavedTheme(stored: Option<string>): (t: string)
    ensures stored.None? ==> t == ThemeLight
    ensures stored.Some? ==> t == stored.value
  {
    stored.GetOr(ThemeLight)
  }

  /** The night mode of a theme name: dark is on, system follows the
      device, and every other name (light included) is off. */
  function NightModeOf(theme: string): (m: NightMode)
    ensures m == NightYes <==> theme == ThemeDark
    ensures m == FollowSystem <==> theme == ThemeSystem
    ensures m == NightNo <==> theme != ThemeDark && theme != ThemeSystem
  {
    if theme == ThemeDark then NightYes
    else if theme == ThemeSystem then FollowSystem
    else NightNo
  }

  /** `applyTheme`. */
  function ApplyTheme(stored: Option<string>): (m: NightMode)
    ensures stored.None? ==> m == NightNo
  {
    NightModeOf(SavedTheme(stored))
  }

  /** The item checked when the dialog opens on a theme. */
  function CheckedItem(theme: string): (i: int)
    ensures 0 <= i < 3
    ensures i == 1 <==> theme == ThemeDark
    ensures i == 2 <==> theme == ThemeSystem
  {
    if theme == ThemeDark then 1
    else if theme == ThemeSystem then 2
    else 0
  }

  /** The theme an item of the dialog stands for; any other position is
      light. */
  function ThemeAt(which: int): (t: string)
    ensures t == ThemeDark <==> which == 1
    ensures t == ThemeSystem <==> which == 2
    ensures t == ThemeLight <==> which != 1 && which != 2
  {
    if which == 1 then ThemeDark
    else if which == 2 then ThemeSystem
    else ThemeLight
  }

  /** The two mappings are inverse on the three themes and the three
      positions. */
  lemma ThemeIndexRoundTrip(t: string, i: int)
    ensures t == ThemeLight || t == ThemeDark || t == ThemeSystem ==> ThemeAt(CheckedItem(t)) == t
    ensures 0 <= i < 3 ==> CheckedItem(ThemeAt(i)) == i
  {
  }

  /** Whatever is stored, the item the dialog checks stands for a theme
      with the night mode in force. */
  lemma CheckedItemMatchesMode(stored: Option<string>)
    ensures NightModeOf(ThemeAt(CheckedItem(SavedTheme(stored)))) == ApplyTheme(stored)
  {
  }

  /** The stored preference and the night mode in force. */
  datatype App = App(stored: Option<string>, mode: NightMode)

  /** `onCreate`: the saved theme is applied before anything else. */
  function OnCreate(stored: Option<string>): (a: App)
    ensures a.stored == stored && a.mode == ApplyTheme(stored)
  {
    App(stored, ApplyTheme(stored))
  }

  /** Choosing item `which`: its theme is saved first and then applied, so
      the mode in force is the one of the saved theme. */
  function SelectTheme(a: App, which: int): (r: App)
    ensures r.stored == Some(ThemeAt(which))
    ensures r.mode == ApplyTheme(r.stored)
    ensures r.mode == NightModeOf(ThemeAt(which))
  {
    var saved := a.(stored := Some(ThemeAt(which)));
    saved.(mode := ApplyTheme(saved.stored))
  }

  /** After a choice the dialog reopens on the item chosen (any position
      other than dark or system reopens on light), and choosing the same
      item again changes nothing. */
  lemma SelectionSticks(a: App, which: int)
    ensures CheckedItem(SavedTheme(SelectTheme(a, which).stored)) == (if which == 1 || which == 2 then which else 0)
    ensures SelectTheme(SelectTheme(a, which), which) == SelectTheme(a, which)
  {
  }

  /** A restart applies the theme last chosen. */
  lemma RestartKeepsChoice(a: App, which: int)
    ensures OnCreate(SelectTheme(a, which).stored) == SelectTheme(a, which)
  {
  }
}

=== FILE: models.dfy ===
/** The `Transaction` record and the sums every screen takes over lists of
    transactions. */
module Models {
  import opened Dates

  const Income: string := "income"
  const Expense: string := "expense"

  /** The two types the store's CHECK constraint admits. */
  predicate ValidType(ty: string) {
    ty == Income || ty == Expense
  }

  /** The record: the datatype constructor is the six-argument constructor,
      so each argument lands in its field, and the field names are the
      getters (`kind` is the Java `type` field, a Dafny keyword). `amount` is
      always in IDR. */
  datatype Transaction = Transaction(
    id: int,
    amount: real,
    description: string,
    kind: string,
    category: string,
    date: CalendarDate)

  datatype Field = Id | Amount | Description | Kind | Category | When

  /** Do `t` and `u` hold the same value in field `f`? */
  predicate Agree(t: Transaction, u: Transaction, f: Field) {
    match f
    case Id => t.id == u.id
    case Amount => t.amount == u.amount
    case Description => t.description == u.description
    case Kind => t.kind == u.kind
    case Category => t.category == u.category
    case When => t.date == u.date
  }

  function SetId(t: Transaction, id: int): (r: Transaction)
    ensures r.id == id
    ensures forall f :: f != Id ==> Agree(t, r, f)
  {
    t.(id := id)
  }

  function SetAmount(t: Transaction, amount: real): (r: Transaction)
    ensures r.amount == amount
    ensures forall f :: f != Amount ==> Agree(t, r, f)
  {
    t.(amount := amount)
  }

  function SetDescription(t: Transaction, description: string): (r: Transaction)
    ensures r.description == description
    ensures forall f :: f != Description ==> Agree(t, r, f)
  {
    t.(description := description)
  }

  function SetType(t: Transaction, ty: string): (r: Transaction)
    ensures r.kind == ty
    ensures forall f :: f != Kind ==> Agree(t, r, f)
  {
    t.(kind := ty)
  }

  function SetCategory(t: Transaction, category: string): (r: Transaction)
    ensures r.category == category
    ensures forall f :: f != Category ==> Agree(t, r, f)
  {
    t.(category := category)
  }

  function SetDate(t: Transaction, date: CalendarDate): (r: Transaction)
    ensures r.date == date
    ensures forall f :: f != When ==> Agree(t, r, f)
  {
    t.(date := date)
  }

  /** Which transactions a sum takes in. */
  datatype Selector = Every | OfType(ty: string) | NotOfType(ty: string) | OfCategory(category: string)
    | Both(first: Selector, second: Selector)

  predicate Selects(sel: Selector, t: Transaction) {
    match sel
    case Every => true
    case OfType(ty) => t.kind == ty
    case NotOfType(ty) => t.kind != ty
    case OfCategory(c) => t.category == c
    case Both(a, b) => Selects(a, t) && Selects(b, t)
  }

  /** What one transaction adds to a sum. */
  function Share(t: Transaction, sel: Selector): real {
    if Selects(sel, t) then t.amount else 0.0
  }

  /** The amounts of the selected transactions, accumulated front to back as
      the Java loops and SQL `SUM` do; an empty sum is 0. */
  function Sum(ts: seq<Transaction>, sel: Selector): real {
    if |ts| == 0 then 0.0
    else Sum(ts[..|ts| - 1], sel) + Share(ts[|ts| - 1], sel)
  }

  lemma SumSingle(t: Transaction, sel: Selector)
    ensures Sum([t], sel) == Share(t, sel)
  {
    assert [t][..0] == [];
  }

  lemma {:induction false} SumConcat(a: seq<Transaction>, b: seq<Transaction>, sel: Selector)
    ensures Sum(a + b, sel) == Sum(a, sel) + Sum(b, sel)
    decreases |b|
  {
    if |b| == 0 {
      assert a + b == a;
    } else {
      assert (a + b)[..|a + b| - 1] == a + b[..|b| - 1];
      SumConcat(a, b[..|b| - 1], sel);
    }
  }

  /** The sequence left once the element at `k` is taken out, by position
      and as a multiset. */
  lemma Removed(b: seq<Transaction>, k: nat) returns (r: seq<Transaction>)
    requires k < |b|
    ensures r == b[..k] + b[k + 1..] && |r| == |b| - 1
    ensures forall i :: 0 <= i < k ==> r[i] == b[i]
    ensures forall i :: k <= i < |r| ==> r[i] == b[i + 1]
    ensures multiset(r) == multiset(b) - multiset{b[k]}
  {
    r := b[..k] + b[k + 1..];
    assert b == b[..k] + [b[k]] + b[k + 1..];
  }

  /** Taking one transaction out of a sequence takes its share out of the sum. */
  lemma SumRemove(b: seq<Transaction>, k: nat, sel: Selector)
    requires k < |b|
    ensures Sum(b, sel) == Sum(b[..k] + b[k + 1..], sel) + Share(b[k], sel)
  {
    assert b == b[..k] + ([b[k]] + b[k + 1..]);
    SumConcat(b[..k], [b[k]] + b[k + 1..], sel);
    SumConcat([b[k]], b[k + 1..], sel);
    SumConcat(b[..k], b[k + 1..], sel);
    SumSingle(b[k], sel);
  }

  /** The last transaction of `a` sits somewhere in any permutation `b` of
      `a`, and the rest of `b` is a permutation of the rest of `a`. */
  lemma MatchLast(a: seq<Transaction>, b: seq<Transaction>) returns (k: nat)
    requires |a| > 0 && multiset(a) == multiset(b)
    ensures k < |b| && b[k] == a[|a| - 1]
    ensures multiset(a[..|a| - 1]) == multiset(b[..k] + b[k + 1..])
  {
    var n := |a| - 1;
    var front := Removed(a, n);
    assert front == a[..n];
    assert a[n] in multiset(b);
    k :| 0 <= k < |b| && b[k] == a[n];
    var rest := Removed(b, k);
  }

  /** A sum does not depend on the order of the transactions. */
  lemma {:induction false} SumPermutation(a: seq<Transaction>, b: seq<Transaction>, sel: Selector)
    requires multiset(a) == multiset(b)
    ensures Sum(a, sel) == Sum(b, sel)
    decreases |a|
  {
    if |a| > 0 {
      var k := MatchLast(a, b);
      SumPermutation(a[..|a| - 1], b[..k] + b[k + 1..], sel);
      SumRemove(b, k, sel);
    } else {
      assert |b| == |multiset(b)| == 0;
    }
  }

  /** Every amount is either of type `ty` or not: the two partial sums add
      up to the sum of all amounts. */
  lemma {:induction false} SumSplit(ts: seq<Transaction>, ty: string)
    ensures Sum(ts, OfType(ty)) + Sum(ts, NotOfType(ty)) == Sum(ts, Every)
  {
    if |ts| > 0 {
      SumSplit(ts[..|ts| - 1], ty);
    }
  }

  predicate AllValidTypes(ts: seq<Transaction>) {
    forall i :: 0 <= i < |ts| ==> ValidType(ts[i].kind)
  }

  /** When every type is one the store admits, "everything that is not
      income" (the screens' rule) and "type = expense" (the store's rule)
      sum to the same figure. */
  lemma {:induction false} NonIncomeIsExpense(ts: seq<Transaction>)
    requires AllValidTypes(ts)
    ensures Sum(ts, NotOfType(Income)) == Sum(ts, OfType(Expense))
  {
    if |ts| > 0 {
      NonIncomeIsExpense(ts[..|ts| - 1]);
    }
  }

  /** A sum over transactions none of which is selected is 0. */
  lemma {:induction false} SumNoneSelected(ts: seq<Transaction>, sel: Selector)
    requires forall i :: 0 <= i < |ts| ==> !Selects(sel, ts[i])
    ensures Sum(ts, sel) == 0.0
  {
    if |ts| > 0 {
      SumNoneSelected(ts[..|ts| - 1], sel);
    }
  }

  /** The selected transactions, in their original order (a `WHERE`). */
  function Filter(ts: seq<Transaction>, sel: Selector): (r: seq<Transaction>)
    ensures |r| <= |ts|
    ensures forall t :: t in r <==> t in ts && Selects(sel, t)
  {
    if |ts| == 0 then []
    else if Selects(sel, ts[|ts| - 1]) then Filter(ts[..|ts| - 1], sel) + [ts[|ts| - 1]]
    else Filter(ts[..|ts| - 1], sel)
  }

  /** Summing the selected rows is summing all rows under the selector. */
  lemma {:induction false} FilterSum(ts: seq<Transaction>, sel: Selector, other: Selector)
    ensures Sum(Filter(ts, sel), other) == Sum(ts, Both(sel, other))
  {
    if |ts| > 0 {
      var n := |ts| - 1;
      var t := ts[n];
      FilterSum(ts[..n], sel, other);
      assert Sum(ts, Both(sel, other)) == Sum(ts[..n], Both(sel, other)) + Share(t, Both(sel, other));
      if Selects(sel, t) {
        assert Filter(ts, sel) == Filter(ts[..n], sel) + [t];
        SumConcat(Filter(ts[..n], sel), [t], other);
        SumSingle(t, other);
      } else {
        assert Filter(ts, sel) == Filter(ts[..n], sel);
      }
    }
  }

  /** The signed effect of a transaction on the balance: income adds,
      expense subtracts. */
  function Signed(t: Transaction): real {
    Share(t, OfType(Income)) - Share(t, OfType(Expense))
  }

  /** Income minus expense over a list of transactions. */
  function Balance(ts: seq<Transaction>): real {
    Sum(ts, OfType(Income)) - Sum(ts, OfType(Expense))
  }

  /** Selectors that pick the same transactions give the same sum. */
  lemma {:induction false} SumEquivalent(ts: seq<Transaction>, a: Selector, b: Selector)
    requires forall t :: Selects(a, t) <==> Selects(b, t)
    ensures Sum(ts, a) == Sum(ts, b)
  {
    if |ts| > 0 {
      SumEquivalent(ts[..|ts| - 1], a, b);
    }
  }

  /** Balance, income and expense, as the summary cards show them. */
  datatype Summary = Summary(balance: real, income: real, expense: real)

  /** The totals loop the home and monthly screens share: a transaction of
      type "income" adds to income and every other one to expense. */
  method Totals(ts: seq<Transaction>) returns (s: Summary)
    ensures s.income == Sum(ts, OfType(Income))
    ensures s.expense == Sum(ts, NotOfType(Income))
    ensures s.balance == s.income - s.expense
    ensures s.income + s.expense == Sum(ts, Every)
  {
    var income, expense := 0.0, 0.0;
    var i := 0;
    while i < |ts|
      invariant 0 <= i <= |ts|
      invariant income == Sum(ts[..i], OfType(Income))
      invariant expense == Sum(ts[..i], NotOfType(Income))
    {
      assert ts[..i + 1][..i] == ts[..i];
      if ts[i].kind == Income {
        income := income + ts[i].amount;
      } else {
        expense := expense + ts[i].amount;
      }
      i := i + 1;
    }
    assert ts[..i] == ts;
    SumSplit(ts, Income);
    s := Summary(income - expense, income, expense);
  }
}

=== FILE: monthly_report.dfy ===
/** `MonthlyReportFragment`: the totals, count and empty state of one
    calendar month, and stepping between months. */
module MonthlyReportFragment {
  import opened Wrappers
  import opened Dates
  import opened Models
  import DatabaseHelper

  /** The balance colour: green from zero up, red below. */
  datatype Tone = Green | Red

  /** What the screen shows for a month. `tone` is `None` when the colour
      is left as it was (the error path does not touch it). */
  datatype Report = Report(totals: Summary, count: nat, showEmpty: bool, tone: Option<Tone>)

  /** `loadMonthlyData` for the cursor `ym`; `store` is `None` when the
      query throws, which shows the empty state with every figure at 0. */
  method LoadMonthlyData(store: Option<DatabaseHelper.Store>, ym: YearMonth) returns (r: Report)
    requires QueryableMonth(ym)
    requires store.Some? ==> DatabaseHelper.Valid(store.value)
    ensures store.None? ==> r == Report(Summary(0.0, 0.0, 0.0), 0, true, None)
    ensures store.Some? ==>
      var month := DatabaseHelper.MonthRows(store.value.rows, ym);
      && r.count == |month|
      && (r.showEmpty <==> |month| == 0)
      && r.totals.income == Sum(month, OfType(Income))
      && r.totals.expense == Sum(month, OfType(Expense))
      && r.totals.balance == r.totals.income - r.totals.expense
      && r.tone == Some(if r.totals.balance >= 0.0 then Green else Red)
  {
    if store.None? {
      return Report(Summary(0.0, 0.0, 0.0), 0, true, None);
    }
    var s := store.value;
    var ts := DatabaseHelper.GetTransactionsForMonth(s, ym);
    var totals := Totals(ts);
    var month := DatabaseHelper.MonthRows(s.rows, ym);
    SumPermutation(ts, month, OfType(Income));
    SumPermutation(ts, month, NotOfType(Income));
    MonthRowsValid(s, ym);
    NonIncomeIsExpense(month);
    assert |ts| == |multiset(ts)| == |multiset(month)| == |month|;
    var tone := if totals.balance >= 0.0 then Green else Red;
    r := Report(totals, |ts|, |ts| == 0, Some(tone));
  }

  /** The month's rows carry valid types, as every row of the store does. */
  lemma MonthRowsValid(s: DatabaseHelper.Store, ym: YearMonth)
    requires QueryableMonth(ym) && DatabaseHelper.Valid(s)
    ensures AllValidTypes(DatabaseHelper.MonthRows(s.rows, ym))
  {
    var month := DatabaseHelper.MonthRows(s.rows, ym);
    forall i | 0 <= i < |month|
      ensures ValidType(month[i].kind)
    {
      assert month[i] in s.rows;
    }
  }

  /** The buttons that move the cursor. */
  datatype Step = Previous | Following

  /** `currentMonth.add(Calendar.MONTH, -1 or +1)`. */
  function Navigate(ym: YearMonth, step: Step): (r: YearMonth)
    requires ValidMonth(ym)
    ensures ValidMonth(r)
    ensures MonthIndex(r) == MonthIndex(ym) + (if step == Following then 1 else -1)
  {
    match step
    case Previous => PrevMonth(ym)
    case Following => NextMonth(ym)
  }
}

=== FILE: text.dfy ===
/** String helpers with the meaning `java.lang.String` and SQLite give them:
    `trim`, ASCII lower-casing, substring search, the byte-wise ordering
    SQLite applies to TEXT values, and fixed-width zero-padded decimals as
    printed by `SimpleDateFormat`. */
module Text {
  import opened Wrappers

  /** `String.trim` removes every character whose code is at most U+0020. */
  predicate IsSpace(c: char) {
    c <= ' '
  }

  predicate Blank(s: string) {
    forall i :: 0 <= i < |s| ==> IsSpace(s[i])
  }

  function TrimStart(s: string): (r: string)
    ensures |r| <= |s| && r == s[|s| - |r|..]
    ensures |r| == 0 || !IsSpace(r[0])
    ensures r == [] <==> Blank(s)
    decreases |s|
  {
    if |s| > 0 && IsSpace(s[0]) then TrimStart(s[1..]) else s
  }

  function TrimEnd(s: string): (r: string)
    ensures |r| <= |s| && r == s[..|r|]
    ensures |r| == 0 || !IsSpace(r[|r| - 1])
    ensures r == [] <==> Blank(s)
    decreases |s|
  {
    if |s| > 0 && IsSpace(s[|s| - 1]) then TrimEnd(s[..|s| - 1]) else s
  }

  /** `String.trim`: the text is empty afterwards exactly when it held
      nothing but spaces and control characters. */
  function Trim(s: string): (r: string)
    ensures |r| <= |s|
    ensures |r| == 0 || (!IsSpace(r[0]) && !IsSpace(r[|r| - 1]))
    ensures r == [] <==> Blank(s)
  {
    TrimEnd(TrimStart(s))
  }

  function LowerChar(c: char): char {
    if 'A' <= c <= 'Z' then (c as int + 32) as char else c
  }

  /** `String.toLowerCase`, restricted to the ASCII letters. */
  function ToLower(s: string): (r: string)
    ensures |r| == |s|
    ensures forall i :: 0 <= i < |s| ==> r[i] == LowerChar(s[i])
  {
    if |s| == 0 then [] else [LowerChar(s[0])] + ToLower(s[1..])
  }

  /** Strict lexicographic order on code points: SQLite's BINARY collation
      for ASCII text. A proper prefix sorts first. */
  predicate LexLess(a: string, b: string)
    decreases |a|
  {
    if |a| == 0 then |b| > 0
    else if |b| == 0 then false
    else if a[0] != b[0] then a[0] < b[0]
    else LexLess(a[1..], b[1..])
  }

  predicate LexLe(a: string, b: string) {
    a == b || LexLess(a, b)
  }

  lemma {:induction false} LexIrreflexive(a: string)
    ensures !LexLess(a, a)
    decreases |a|
  {
    if |a| > 0 {
      LexIrreflexive(a[1..]);
    }
  }

  /** Two concatenations whose first parts have the same length are equal
      exactly when both parts are. */
  lemma ConcatEq(a1: string, b1: string, a2: string, b2: string)
    requires |a1| == |a2|
    ensures a1 + b1 == a2 + b2 <==> a1 == a2 && b1 == b2
  {
    if a1 + b1 == a2 + b2 {
      assert a1 == (a1 + b1)[..|a1|] && a2 == (a2 + b2)[..|a2|];
      assert b1 == (a1 + b1)[|a1|..] && b2 == (a2 + b2)[|a2|..];
    }
  }

  /** Comparing two concatenations whose first parts have the same length
      compares the first parts, and the second parts on a tie. */
  lemma {:induction false} LexConcat(a1: string, b1: string, a2: string, b2: string)
    requires |a1| == |a2|
    ensures LexLess(a1 + b1, a2 + b2) <==> LexLess(a1, a2) || (a1 == a2 && LexLess(b1, b2))
    decreases |a1|
  {
    if |a1| == 0 {
      assert a1 + b1 == b1 && a2 + b2 == b2;
    } else {
      assert (a1 + b1)[0] == a1[0] && (a2 + b2)[0] == a2[0];
      assert (a1 + b1)[1..] == a1[1..] + b1;
      assert (a2 + b2)[1..] == a2[1..] + b2;
      if a1[0] == a2[0] {
        LexConcat(a1[1..], b1, a2[1..], b2);
        assert a1 == a2 <==> a1[1..] == a2[1..] by {
          if a1[1..] == a2[1..] {
            assert a1 == [a1[0]] + a1[1..] && a2 == [a2[0]] + a2[1..];
          }
        }
      }
    }
  }

  function Pow10(w: nat): (p: nat)
    ensures p >= 1
  {
    if w == 0 then 1 else 10 * Pow10(w - 1)
  }

  function Digit(d: nat): char
    requires d < 10
  {
    ('0' as int + d) as char
  }

  /** `n` written with exactly `w` decimal digits, zero padded on the left
      (the low `w` digits when `n` is wider). */
  function Pad(n: nat, w: nat): (s: string)
    ensures |s| == w
    ensures forall i :: 0 <= i < w ==> '0' <= s[i] <= '9'
  {
    if w == 0 then [] else Pad(n / 10, w - 1) + [Digit(n % 10)]
  }

  lemma DivMod10(n: nat, m: nat)
    ensures n == m <==> (n / 10 == m / 10 && n % 10 == m % 10)
    ensures n < m <==> (n / 10 < m / 10 || (n / 10 == m / 10 && n % 10 < m % 10))
  {
    assert n == 10 * (n / 10) + n % 10;
    assert m == 10 * (m / 10) + m % 10;
    if n / 10 < m / 10 {
      assert 10 * (n / 10) + 10 <= 10 * (m / 10);
    } else if m / 10 < n / 10 {
      assert 10 * (m / 10) + 10 <= 10 * (n / 10);
    }
  }

  lemma DivBound(n: nat, w: nat)
    requires w > 0 && n < Pow10(w)
    ensures n / 10 < Pow10(w - 1)
  {
    assert n == 10 * (n / 10) + n % 10;
  }

  lemma SnocEq(a: string, x: char, b: string, y: char)
    requires |a| == |b|
    ensures a + [x] == b + [y] <==> a == b && x == y
  {
    if a + [x] == b + [y] {
      assert a == (a + [x])[..|a|] && b == (b + [y])[..|b|];
      assert x == (a + [x])[|a|] && y == (b + [y])[|b|];
    }
  }

  /** Distinct numbers in range have distinct padded forms. */
  lemma {:induction false} PadInjective(n: nat, m: nat, w: nat)
    requires n < Pow10(w) && m < Pow10(w)
    ensures Pad(n, w) == Pad(m, w) <==> n == m
  {
    if w > 0 {
      DivBound(n, w);
      DivBound(m, w);
      PadInjective(n / 10, m / 10, w - 1);
      SnocEq(Pad(n / 10, w - 1), Digit(n % 10), Pad(m / 10, w - 1), Digit(m % 10));
      DivMod10(n, m);
    }
  }

  /** Padded numbers of one width sort as strings exactly as they sort as
      numbers. */
  lemma {:induction false} PadOrder(n: nat, m: nat, w: nat)
    requires n < Pow10(w) && m < Pow10(w)
    ensures LexLess(Pad(n, w), Pad(m, w)) <==> n < m
  {
    if w > 0 {
      DivBound(n, w);
      DivBound(m, w);
      PadOrder(n / 10, m / 10, w - 1);
      PadInjective(n / 10, m / 10, w - 1);
      LexConcat(Pad(n / 10, w - 1), [Digit(n % 10)], Pad(m / 10, w - 1), [Digit(m % 10)]);
      assert LexLess([Digit(n % 10)], [Digit(m % 10)]) <==> n % 10 < m % 10 by {
        assert [Digit(n % 10)][1..] == [] && [Digit(m % 10)][1..] == [];
      }
      DivMod10(n, m);
    }
  }

  /** The number a string of decimal digits spells. */
  function Value(s: string): nat
    requires forall i :: 0 <= i < |s| ==> '0' <= s[i] <= '9'
  {
    if |s| == 0 then 0 else 10 * Value(s[..|s| - 1]) + (s[|s| - 1] as int - '0' as int)
  }

  /** Reading a padded number back gives the number, when it fits. */
  lemma {:induction false} PadValue(n: nat, w: nat)
    requires n < Pow10(w)
    ensures Value(Pad(n, w)) == n
  {
    if w > 0 {
      DivBound(n, w);
      PadValue(n / 10, w - 1);
      var s := Pad(n, w);
      assert s[..w - 1] == Pad(n / 10, w - 1);
      assert s[w - 1] == Digit(n % 10);
    }
  }

  /** Does `sep` occur in `s` starting at position `k`? */
  predicate OccursAt(s: string, sep: string, k: int) {
    0 <= k && k + |sep| <= |s| && s[k..k + |sep|] == sep
  }

  /** The first position at or after `from` where `sep` occurs (`indexOf`). */
  function IndexFrom(s: string, sep: string, from: nat): (r: Option<nat>)
    ensures r.Some? ==> from <= r.value && OccursAt(s, sep, r.value)
    ensures r.Some? ==> forall k :: from <= k < r.value ==> !OccursAt(s, sep, k)
    ensures r.None? ==> forall k :: from <= k ==> !OccursAt(s, sep, k)
    decreases |s| - from
  {
    if from + |sep| > |s| then None
    else if s[from..from + |sep|] == sep then Some(from)
    else IndexFrom(s, sep, from + 1)
  }

  function IndexOf(s: string, sep: string): Option<nat> {
    IndexFrom(s, sep, 0)
  }

  /** The position of `x` in `xs`, or -1 (`List.indexOf`). */
  function IndexIn(xs: seq<string>, x: string): (r: int)
    ensures -1 <= r < |xs|
    ensures r >= 0 ==> xs[r] == x && forall i :: 0 <= i < r ==> xs[i] != x
    ensures r == -1 ==> forall i :: 0 <= i < |xs| ==> xs[i] != x
  {
    if |xs| == 0 then -1
    else if xs[0] == x then 0
    else
      var r := IndexIn(xs[1..], x);
      if r == -1 then -1 else r + 1
  }
}

=== FILE: wrappers.dfy ===
/** The optional value used wherever the Java code has a nullable reference
    or a lookup that can miss. */
module Wrappers {

  datatype Option<+T> = None | Some(value: T) {

    /** The value held, or `default` when there is none. */
    function GetOr(default: T): T
    {
      match this
      case Some(v) => v
      case None => default
    }
  }
}
